=== FILE: README.md ===
# Discord message dashboard — verified model of its pure core

The dashboard is a Flask web application wrapped around a Discord bot: a
signed-in user picks a mutual server (a *guild*) and one or more channels and
sends, schedules or logs a message through the bot. Almost all of it is glue
over OAuth, SQLite and the Discord SDK. This Dafny project models the small
pieces of real logic inside `main.py` and proves what they promise:

- **Uploads** (`uploads.dfy`): the `ALLOWED_EXTENSIONS` table,
  `allowed_file`, `get_file_type`, and the upload loop of `api_send` that stores
  each accepted file. Only the lowercased text after the last `.` is looked up.
  The table's lists are pairwise disjoint, so the category found does not
  depend on declaration order. For names with a `.`, `allowed_file` holds
  exactly when `get_file_type` is not `'other'`; on a name without one
  `get_file_type` raises.
- **Countdown badge** (`countdown.dfy`): the JavaScript `formatTimeLeft`
  embedded in the page template. It is modelled with JavaScript's `Math.floor`
  and truncating `%`. For positive input the fields are the mixed-radix digits
  of the count. The badge reads back as its leading fields. It never
  overstates the time left, and understates it by less than its smallest printed unit.
- **Message text** (`messages.dfy`): the `**title**` prefix of plain messages,
  the embed envelope, and the `...` previews. The history log keeps 100
  characters and the schedule list shows 80.
- **Channel rules** (`channels.dfy`):
  - the `api_channels` filter and its stable sort by position;
  - `api_send`'s request checks, its target selection (bulk id list or single id) and its send loop;
  - the re-check done by the scheduled sender's timer callback.
- `text.dfy` holds the string helpers: ASCII lowercasing, first and last
  occurrence of a character, and decimal rendering with its inverse. `results.dfy`
  holds `Option` and `Result`. `seqs.dfy` holds the list filter (a
  comprehension with an `if`) that the listing, the send loop and the
  upload loop share.

Guilds and channels are plain records. The bot's permission check
`channel.permissions_for(guild.me).send_messages` is a boolean field `canSend`,
and the channel class is an enumeration. Form fields that the source passes to
`int()` are abstracted as `Missing | Malformed | Id(n)`. Whether
`discord.Color.from_str` accepts the embed colour is a boolean `colourOk`.

Several behaviours of the code are easy to miss, and the model keeps them:
- The target selection of `api_send` checks only the send permission. Unlike
  `api_channels`, it does not require a text channel (`SendDoesNotRequireText`).
- A bulk id that `int()` rejects ends the loop but keeps the channels already
  collected, because the loop sits inside a bare `except: pass`.
- A repeated bulk id is not merged: its channel is sent to once per occurrence
  (`BulkTargetsCount`).
- A single malformed `channel_id` is not caught there. It reaches the handler's
  outer `except`, which reports the exception text.
- A malformed embed colour raises inside the per-target `try` of `api_send`
  (main.py:2497-2501, 2577). Nothing is sent, yet the reply is a success with
  `sent_count` 0. The timer callback swallows the same error (main.py:2728).
- Selection accepts any channel the bot may post in, categories and forums
  included. In discord.py those have no `send`, so the attribute lookup at
  main.py:2517/2531 raises into the per-target `try` and the target is
  skipped without being counted. The timer callback swallows the same error.

The upload loop asks `get_file_type` about the name returned by
`secure_filename`, not the name `allowed_file` accepted. This can abort the
request (see "## Findings"). `Send` uses the corrected loop; `SendAsWritten`
keeps the loop as written.

## Model

| member | source | states |
|---|---|---|
| `Text.Lower` | main.py:176 | `.lower()` keeps the length and maps every character through the ASCII lowercase mapping |
| `Text.LastIndexOf` | main.py:176 | the index `rsplit('.', 1)` splits at: a `.` with no `.` after it, absent exactly when the name has no `.` |
| `Text.NatToDecimal` | main.py:2412 | `str(n)` of a natural number is a non-empty string of digits without a leading zero |
| `Text.DecimalRoundTrip` | main.py:2412 | reading the decimal form of `str(channel.id)` back gives the id itself |
| `Text.DecimalInjective` | main.py:2412 | distinct channel ids get distinct `id` strings |
| `Uploads.Flatten` | main.py:176-178 | the comprehension over `ALLOWED_EXTENSIONS.values()` contains exactly the extensions some category lists |
| `Uploads.Suffix` | main.py:176 | `filename.rsplit('.', 1)[1]` is the text after some `.` of the name and contains no `.` itself |
| `Uploads.Extension` | main.py:176 | the looked-up key is the lowercased text after the last `.`: it contains no `.` |
| `Uploads.AllowedFile` | main.py:175-178 | `allowed_file` holds exactly for names with a `.` that `get_file_type` does not call `'other'` |
| `Uploads.AllowedFileFlattened` | main.py:175-178 | `allowed_file` is false without a `.`, and otherwise is membership of the lowercased last suffix in the flattened list |
| `Uploads.AllowedByLastDot` | main.py:175-178 | for the last `.` of a name, `allowed_file` holds iff the lowercased text after it is listed by some category |
| `Uploads.ExeSuffixRejected` | main.py:175-178 | any name ending in `.exe`, such as `a.PNG.exe`, is rejected: only the final suffix counts |
| `Uploads.FirstCategory` | main.py:182-185 | the category loop returns `'other'` when no list has the suffix, else the name of the first category whose list has it |
| `Uploads.FileType` | main.py:180-185 | `get_file_type` is `'other'` exactly when no category lists the suffix; otherwise it is the name of a category that lists it |
| `Uploads.AllowedExtensionsDisjoint` | main.py:164-170 | no extension appears in two categories of the table |
| `Uploads.FirstCategoryUnique` | main.py:182-185 | in a disjoint table the first matching category is the only one, so declaration order does not change the answer |
| `Uploads.FileTypeCategory` | main.py:180-185 | `get_file_type` names whichever category lists the lowercased last suffix, and returns `'other'` exactly when none does |
| `Uploads.UpperCaseSuffixAccepted` | main.py:175-185 | the suffix is lowercased first: any name ending in `.PNG` is allowed and typed `'image'` |
| `Uploads.LastSuffixListed` | main.py:175-185 | a name whose last suffix lowercases to an extension of some category is allowed and typed with that category, whatever comes before the last `.` |
| `Uploads.SecureName` | main.py:2476 | the secured name is a slice of the name, everything cut off on either side is `.` or `_`, and what remains neither starts nor ends with one |
| `Uploads.StoredFilesAsWritten` | main.py:2474-2490 | the loop as written aborts exactly when some accepted upload's secured name has no `.`; otherwise it stores exactly the rows of the corrected loop |
| `Uploads.StoredFilesCons` | main.py:2474-2490 | the loop handles the uploads one at a time: the first upload's row, if accepted, comes before the rows of the rest |
| `Uploads.AcceptedEndsClean` | main.py:164-178 | every listed extension ends in a letter or digit, so an accepted name ends in neither `.` nor `_` and `strip("._")` never cuts its end |
| `Uploads.SecuredKeepsType` | main.py:2475-2487 | when the secured name of an accepted upload still has a `.`, `get_file_type` gives it the same category as the name `allowed_file` accepted |
| `Uploads.StoredFiles` | main.py:2474-2490 | one row per accepted upload, in upload order, each under the upload's secured name with its category (never `'other'`); uploads `allowed_file` rejects leave no row |
| `Uploads.StoredRows` | main.py:2474-2490 | the rows made from the accepted uploads contain the row of every accepted upload and nothing but such rows |
| `Uploads.HiddenExtensionAborts` | main.py:2474-2490 | a name `.` + a listed extension is accepted, secured to the bare extension, aborts the loop as written, and is stored with its category when corrected |
| `Uploads.DotNameAborts` | main.py:2474-2490 | `.png` is accepted, secured to `png`, aborts the loop as written, and is stored as an image when corrected |
| `Countdown.FloorDiv` | main.py:2145-2147 | `Math.floor(a / b)` for positive `b` is the greatest `q` with `q * b <= a` |
| `Countdown.TruncRem` | main.py:2146-2147 | JavaScript `%` leaves a remainder smaller than `b` in magnitude, with the sign of `a`, differing from `a` by a multiple of `b` |
| `Countdown.Split` | main.py:2145-2147 | for `ms > 0`: `hours < 24`, `minutes < 60`, and `days*86400000 + hours*3600000 + minutes*60000 <= ms <` that plus 60000 |
| `Countdown.SplitPositive` | main.py:2145-2147 | for positive counts the JavaScript floor and `%` give the Euclidean quotients and remainders |
| `Countdown.SplitDecomposes` | main.py:2145-2147 | the fields are the mixed-radix (day/hour/minute) digits of a positive count |
| `Countdown.Render` | main.py:2149-2151 | a split with no negative field renders to text that reads back as exactly its displayed fields with their unit letters |
| `Countdown.FormatTimeLeft` | main.py:2144-2152 | for positive input the badge text reads back, and its fields add up to the time it shows |
| `Countdown.ShownBounds` | main.py:2145-2151 | the time the badge shows is at most the time left, and less than one printed unit (hour or minute) below it |
| `Countdown.FormatTimeLeftShape` | main.py:2149-2151 | from one day on the badge is `{d}d {h}h`, from one hour on `{h}h {m}m`, otherwise `{m}m` |
| `Countdown.DisplayedValue` | main.py:2149-2151 | the displayed fields, weighted by their units, add up to the time shown |
| `Messages.PlainBody` | main.py:2522 | an empty title leaves the content unchanged; otherwise `**`, the title and `**\n\n` precede it; the content is always a suffix |
| `Messages.PlainBodyInjective` | main.py:2522 | with non-empty titles free of `*`, equal bodies come from equal titles and equal contents |
| `Messages.EmptyTitleIsAmbiguous` | main.py:2713 | untitled content that itself starts with a bold line is sent exactly like a titled message |
| `Messages.Preview` | main.py:2544 | content within the limit is kept; longer content becomes its first `limit` characters plus `...`, length `limit + 3` |
| `Messages.PreviewKeepsPrefix` | main.py:1981 | the preview starts with as much of the content as the limit allows |
| `Messages.PreviewIdempotent` | main.py:2544 | shortening a preview again changes nothing |
| `Messages.Compose` | main.py:2497-2522 | an embed carries the content as description and a title only when one is given; a plain message is the plain body of title and content |
| `Channels.FindGuild` | main.py:2405 | `bot.get_guild` returns a member guild with that id, or none when no guild has it |
| `Channels.FindChannel` | main.py:2457 | `guild.get_channel` returns a channel of the guild with that id, or none when none has it |
| `Channels.FindChannelOfMember` | main.py:2463 | with unique ids, looking up a channel's own id finds that channel |
| `Channels.Sendable` | main.py:2410-2417 | the listing loop keeps exactly the text channels the bot may post in, each as often as the guild has it |
| `Seqs.FilterConcat` | main.py:2410-2417 | a filtering loop keeps its survivors in input order: filtering a concatenation filters each part in turn |
| `Channels.Insert` | main.py:2419 | inserting into a list sorted by position keeps it sorted and adds exactly that channel |
| `Channels.SortByPosition` | main.py:2419 | `sort(key=position)` gives a list ordered by position that is a permutation of its input |
| `Channels.InsertStable` | main.py:2419 | insertion keeps the relative order of channels sharing a position |
| `Channels.SortStable` | main.py:2419 | the sort is stable: channels at the same position stay in guild order |
| `Channels.ListedChannels` | main.py:2409-2419 | `api_channels` lists exactly the sendable text channels, as a permutation of the filtered list, by non-decreasing position |
| `Channels.Info` | main.py:2411-2416 | a listed record's `id` string reads back as the channel id; name, position and a present topic are copied, a missing topic becomes `''` |
| `Channels.Infos` | main.py:2409-2417 | one record per channel, in the same order |
| `Channels.ListChannels` | main.py:2398-2420 | no guild id or an unknown guild gives an empty list; a malformed id is an uncaught error; a found guild gets the record of each listed channel, in sorted order |
| `Channels.Postable` | main.py:2462-2465 | the single-id branch yields at most the channel found with that id, only if the bot may post there, and nothing exactly when it is absent or not postable |
| `Channels.PostableMember` | main.py:2462-2465 | with unique ids, a channel's own id selects it exactly when the bot may post in it |
| `Channels.ParsedIds` | main.py:2453-2461 | the ids the bulk loop reaches are those of the leading entries `int()` accepts, stopping at the first it rejects |
| `Channels.BulkTargets` | main.py:2453-2461 | every bulk target is a channel of the guild, the bot may post in it, and its id was reached before the first rejected entry |
| `Channels.BulkTargetsComplete` | main.py:2453-2461 | with unique ids, the bulk loop collects exactly the postable channels whose ids it reaches |
| `Channels.BulkTargetsCount` | main.py:2456-2459 | with unique ids, a postable channel is a target once for every time its id is reached |
| `Channels.Candidates` | main.py:2453-2465 | bulk mode yields the bulk loop's channels (none for unreadable JSON); otherwise a missing id yields none, a malformed one fails, and a valid one yields the postable lookup |
| `Channels.SelectTargets` | main.py:2425-2468 | each error (`Not authenticated`, `No guild specified`, a malformed guild id, `Guild not found`, `No valid channels specified`) holds exactly under its condition; a found postable single id is selected alone; every success is non-empty, in the guild and postable |
| `Channels.ErrorTextInjective` | main.py:2429-2468 | the fixed error replies of `api_send` are distinct texts, so a client can tell the errors apart |
| `Channels.SelectBulkTargets` | main.py:2453-2468 | in bulk mode the targets are the bulk loop's, and an empty result is the only failure |
| `Channels.SelectBulk` | main.py:2453-2468 | with unique ids, bulk mode succeeds iff some postable channel's id is reached; the targets are exactly those channels, each once per occurrence of its id |
| `Channels.SendDoesNotRequireText` | main.py:2462-2465 | a postable voice channel is accepted as the single target |
| `Channels.Deliveries` | main.py:2494-2545 | one delivery per target, in target order, each with the same message and preview |
| `Channels.SendLoop` | main.py:2494-2578 | the deliveries go, in target order, to exactly the targets that have a `send`, each with the composed message and the 100-character preview; when the embed colour is rejected no target gets anything |
| `Channels.SendLoopDelivers` | main.py:2493-2536 | `sent_count` is the number of targets with a `send`; each such target is delivered to as often as it is listed, and nothing else is delivered to |
| `Channels.Send` | main.py:2423-2594 | nothing is sent when selection fails, with its error; otherwise the accepted uploads are stored and the targets with a `send` get one delivery per listing, in target order, with the composed message, unless the colour is rejected; every delivery goes to a postable channel of the guild |
| `Channels.SendAsWritten` | main.py:2474-2594 | after a successful selection the request fails with the `get_file_type` error exactly when some accepted upload's secured name has no `.`; without such an upload the reply is that of the corrected request |
| `Channels.DotNameFailsSend` | main.py:2474-2594 | whenever selection succeeds, an upload named `.png` makes the request as written fail, while the corrected request is sent |
| `Channels.DeliverScheduled` | main.py:2696-2729 | the timer sends exactly when both ids parse, the guild and channel still exist, the bot may post there, the channel has a `send` and an embed's colour parses; it sends the composed message to the channel found |

## Findings

| source | as written | input that shows it | evidently intended | confidence | as-written member | corrected member |
|---|---|---|---|---|---|---|
| main.py:2475-2487 | the upload loop checks `allowed_file(file.filename)` and then calls `get_file_type(filename)` on the name `secure_filename` returned. `secure_filename` strips leading dots, so the second name can lack a `.`. `rsplit('.', 1)[1]` then raises `IndexError`, and the outer `except` replies with an error after the targets were chosen | an upload named `.png` with a valid target: accepted, secured to `png`, reply `list index out of range`, nothing sent | every upload `allowed_file` accepts is stored with the category of the extension it was accepted for | medium, not executed | `Uploads.StoredFilesAsWritten`, `Uploads.DotNameAborts`, `Channels.SendAsWritten`, `Channels.DotNameFailsSend` | `Uploads.StoredFiles`, `Channels.Send` |

## Left out

- Flask routes, sessions, the OAuth2 code exchange and redirects: request and network plumbing. Authentication is reduced to one `signedIn` flag.
- The SQLite schema and every INSERT, SELECT and UPDATE, including the analytics counters: CRUD over a foreign database. A stored upload is modelled as its name and type only, without size, content or row id.
- Discord SDK calls (`get_guild`, `get_channel`, `permissions_for`, `send`, `discord.Embed`, `run_coroutine_threadsafe`) are replaced by record lookups and fields.
- Channels.Send: a target fails only through the embed colour or a missing `send`. Opening an attachment with `discord.File` can also raise before the send; that is filesystem I/O and is not modelled. The database and analytics writes come after `sent_count` is incremented, so their failures do not change the count. The files attached to each message are not part of a delivery.
- Channels.HasSend: which channel kinds have a `send` follows discord.py's class hierarchy, which is not part of this model. Text, voice and stage channels are messageable there; categories and forums are not.
- Channels.Send: the coroutine handed to `run_coroutine_threadsafe` runs later on the bot's loop. A send the Discord API rejects there still counts as sent, and the model counts it too.
- Channels.Send: `discord.Color.from_str` itself is not modelled. Whether it accepts the colour string is the input `colourOk`.
- Channels.DeliverScheduled: the colour is likewise the input `colourOk`. The database update after the send is not modelled.
- `threading.Timer`, the `schedule` polling thread and the Flask thread: concurrency and wall-clock time. `DeliverScheduled` models only what the timer callback decides when it fires.
- `formatBytes`: floating-point logarithms and `toFixed`.
- `datetime.fromisoformat` parsing and the 7-day analytics windows: date handling over the current clock.
- The audioop import shim, saving and removing files, `uuid` naming: runtime and filesystem I/O.
- Uploads.SecureName: `secure_filename` belongs to werkzeug, which is not part of this model. Only its final `strip("._")` is modelled. That is its whole effect on POSIX for names made of ASCII letters, digits, `-`, `_` and `.`. Unicode normalisation, path separators and whitespace are not modelled.
- The HTML, CSS and DOM code other than `formatTimeLeft` and the schedule-list preview.
- Embed images and thumbnails: they are URLs handed to the SDK.
- Text.Lower: `str.lower()` is modelled as ASCII lowercasing. Python's Unicode case mapping is not modelled (the Kelvin sign lowercases to `k`, for instance).
- Messages.Preview: Python slices by code point and JavaScript's `substring` by UTF-16 unit. Both are modelled as slicing a sequence of characters.
- Countdown.FormatTimeLeft: the millisecond count is an integer. JavaScript's floating-point numbers lose precision beyond 2^53 and print exponents from 10^21; neither is modelled.
- Countdown.Split: its bounds are stated for positive counts only, because the single call site (main.py:1986) guards `timeLeft > 0`. For other inputs it computes what JavaScript computes, but nothing is proved.
- Python's `int()` parsing and `json.loads` are not modelled. A field is given as already parsed, malformed or missing (`IdField`). The bulk list is given as the entries its iteration yields (`IdList`).
- Channels.ErrorText: the reply text of a malformed id is the Python exception message, which the model does not reproduce, so `ErrorText` returns none for it.
- Channels.SelectBulk: the complete bulk characterisation assumes unique channel ids within a guild, as Discord's snowflake ids are.
- Channels.ListChannels: the unhandled `int()` failure is modelled as a `ServerError` reply, not as Flask's error page.

=== FILE: channels.dfy ===
/**
  Channel rules of the dashboard's HTTP handlers, over plain records that
  stand in for the chat platform's guild and channel objects:
  - `api_channels` lists the text channels the bot may post in, by position;
  - `api_send` checks the request and picks the target channels, either a
    bulk list of ids or a single id, failing when none is left;
  - the timer callback of `api_schedule` re-checks its one channel before sending.
 */
module Channels {
  import opened Results
  import opened Text
  import Messages
  import opened Uploads
  import Seqs

  /** The platform's channel classes; only `TextChannel` passes the listing's `isinstance` test. */
  datatype ChannelKind = TextChannel | VoiceChannel | CategoryChannel | ForumChannel | StageChannel

  /**
    A channel of a guild. `canSend` stands for
    `channel.permissions_for(guild.me).send_messages`.
   */
  datatype Channel = Channel(
    id: nat,
    name: string,
    topic: Option<string>,
    position: int,
    kind: ChannelKind,
    canSend: bool)

  /** A guild the bot is a member of, with its channels in the platform's order. */
  datatype Guild = Guild(id: nat, name: string, channels: seq<Channel>)

  /**
    A form or query field that `int()` is applied to: absent or empty (falsy),
    text `int()` rejects, or a parsed integer.
   */
  datatype IdField = Missing | Malformed | Id(n: int)

  /** `bot.get_guild(n)`: the guild with that id, if the bot is in one. */
  function FindGuild(guilds: seq<Guild>, n: int): (r: Option<Guild>)
    ensures r.Some? ==> r.value in guilds && r.value.id == n
    ensures r.None? ==> forall g :: g in guilds ==> g.id != n
  {
    if |guilds| == 0 then None
    else if guilds[0].id == n then Some(guilds[0])
    else FindGuild(guilds[1..], n)
  }

  /** `guild.get_channel(n)`: the channel of the guild with that id, if any. */
  function FindChannel(channels: seq<Channel>, n: int): (r: Option<Channel>)
    ensures r.Some? ==> r.value in channels && r.value.id == n
    ensures r.None? ==> forall c :: c in channels ==> c.id != n
  {
    if |channels| == 0 then None
    else if channels[0].id == n then Some(channels[0])
    else FindChannel(channels[1..], n)
  }

  /** Channel ids are unique within a guild, as the platform guarantees. */
  predicate UniqueIds(channels: seq<Channel>) {
    forall i, j :: 0 <= i < j < |channels| ==> channels[i].id != channels[j].id
  }

  /** With unique ids, looking up the id of a member channel finds that very channel. */
  lemma FindChannelOfMember(channels: seq<Channel>, c: Channel)
    requires UniqueIds(channels) && c in channels
    ensures FindChannel(channels, c.id) == Some(c)
  {
    if channels[0] != c {
      assert c in channels[1..];
      assert UniqueIds(channels[1..]) by {
        forall i, j | 0 <= i < j < |channels[1..]| ensures channels[1..][i].id != channels[1..][j].id {
          assert channels[1..][i] == channels[i + 1] && channels[1..][j] == channels[j + 1];
        }
      }
      var k :| 0 <= k < |channels| && channels[k] == c;
      assert k > 0;
      assert channels[0].id != c.id;
      FindChannelOfMember(channels[1..], c);
    }
  }

  // ---------------------------------------------------------------------
  // Listing: `api_channels`
  // ---------------------------------------------------------------------

  /** The listing's test: a text channel the bot may post in. */
  predicate Listable(c: Channel) {
    c.kind == TextChannel && c.canSend
  }

  /**
    The guild's listable channels in the guild's own order (the loop of
    `api_channels`): each listable channel as often as the guild has it,
    nothing else.
   */
  function Sendable(channels: seq<Channel>): (r: seq<Channel>)
    ensures forall c :: c in r <==> c in channels && Listable(c)
    ensures forall c :: multiset(r)[c] == if Listable(c) then multiset(channels)[c] else 0
    ensures |r| <= |channels|
  {
    Seqs.Filter(channels, Listable)
  }

  predicate SortedByPosition(s: seq<Channel>) {
    forall i, j :: 0 <= i < j < |s| ==> s[i].position <= s[j].position
  }

  /** Inserts `x` before the first element whose position is not smaller. */
  function Insert(x: Channel, s: seq<Channel>): (r: seq<Channel>)
    requires SortedByPosition(s)
    ensures SortedByPosition(r)
    ensures multiset(r) == multiset(s) + multiset{x}
    ensures |r| == |s| + 1 && (r[0] == x || (|s| > 0 && r[0] == s[0]))
  {
    if |s| == 0 || x.position <= s[0].position then [x] + s
    else
      var rest := Insert(x, s[1..]);
      assert s == [s[0]] + s[1..];
      assert s[0].position <= rest[0].position;
      [s[0]] + rest
  }

  /** `list.sort(key=position)`: Python's sort is stable, modelled by insertion sort. */
  function SortByPosition(s: seq<Channel>): (r: seq<Channel>)
    ensures SortedByPosition(r)
    ensures multiset(r) == multiset(s)
  {
    if |s| == 0 then []
    else
      assert s == [s[0]] + s[1..];
      Insert(s[0], SortByPosition(s[1..]))
  }

  /** `[c]` when `c` sits at position `p`, otherwise nothing. */
  function OneAt(c: Channel, p: int): seq<Channel> {
    if c.position == p then [c] else []
  }

  /** The channels of `s` at position `p`, in their order in `s`. */
  function AtPosition(s: seq<Channel>, p: int): seq<Channel> {
    if |s| == 0 then [] else OneAt(s[0], p) + AtPosition(s[1..], p)
  }

  lemma AtPositionCons(c: Channel, s: seq<Channel>, p: int)
    ensures AtPosition([c] + s, p) == OneAt(c, p) + AtPosition(s, p)
  {
    assert ([c] + s)[1..] == s;
  }

  /** Moving a channel past one at a smaller position keeps every position's subsequence. */
  lemma PassSmaller(head: Channel, x: Channel, tail: seq<Channel>, rest: seq<Channel>, p: int)
    requires head.position < x.position
    requires AtPosition(rest, p) == AtPosition([x] + tail, p)
    ensures AtPosition([head] + rest, p) == AtPosition([x] + ([head] + tail), p)
  {
    AtPositionCons(head, rest, p);
    AtPositionCons(x, tail, p);
    AtPositionCons(x, [head] + tail, p);
    AtPositionCons(head, tail, p);
  }

  lemma {:induction false} InsertStable(x: Channel, s: seq<Channel>, p: int)
    requires SortedByPosition(s)
    ensures AtPosition(Insert(x, s), p) == AtPosition([x] + s, p)
    decreases |s|
  {
    if |s| > 0 && x.position > s[0].position {
      var head, tail := s[0], s[1..];
      assert s == [head] + tail;
      InsertStable(x, tail, p);
      PassSmaller(head, x, tail, Insert(x, tail), p);
    }
  }

  /**
    Sorting is stable: for every position, the channels sharing it keep the
    order they had in the guild.
   */
  lemma {:induction false} SortStable(s: seq<Channel>, p: int)
    ensures AtPosition(SortByPosition(s), p) == AtPosition(s, p)
    decreases |s|
  {
    if |s| > 0 {
      SortStable(s[1..], p);
      InsertStable(s[0], SortByPosition(s[1..]), p);
      AtPositionCons(s[0], SortByPosition(s[1..]), p);
      AtPositionCons(s[0], s[1..], p);
      assert s == [s[0]] + s[1..];
    }
  }

  /**
    The channels `api_channels` lists for a guild: exactly its listable
    channels, each as often as in the guild, by non-decreasing position.
   */
  function ListedChannels(g: Guild): (r: seq<Channel>)
    ensures forall c :: c in r <==> c in g.channels && Listable(c)
    ensures multiset(r) == multiset(Sendable(g.channels))
    ensures |r| == |Sendable(g.channels)|
    ensures SortedByPosition(r)
  {
    var r := SortByPosition(Sendable(g.channels));
    assert forall c :: c in r <==> c in multiset(Sendable(g.channels));
    assert |multiset(r)| == |r|;
    r
  }

  /** The record `api_channels` returns for a channel. */
  datatype ChannelInfo = ChannelInfo(id: string, name: string, topic: string, position: int)

  /** `{'id': str(channel.id), 'name': ..., 'topic': channel.topic or '', 'position': ...}`. */
  function Info(c: Channel): (r: ChannelInfo)
    ensures AllDigits(r.id) && DecimalValue(r.id) == c.id
    ensures r.name == c.name && r.position == c.position
    ensures c.topic.Some? ==> r.topic == c.topic.value
    ensures c.topic.None? ==> r.topic == []
  {
    DecimalRoundTrip(c.id);
    ChannelInfo(NatToDecimal(c.id), c.name, c.topic.GetOr(""), c.position)
  }

  function Infos(cs: seq<Channel>): (r: seq<ChannelInfo>)
    ensures |r| == |cs|
    ensures forall i :: 0 <= i < |cs| ==> r[i] == Info(cs[i])
  {
    if |cs| == 0 then [] else [Info(cs[0])] + Infos(cs[1..])
  }

  /** The JSON reply of `api_channels`, or the server error an uncaught `int()` failure gives. */
  datatype ChannelsReply = ChannelList(channels: seq<ChannelInfo>) | ServerError

  /** `api_channels(guild_id)`. */
  function ListChannels(guilds: seq<Guild>, guildId: IdField): (r: ChannelsReply)
    ensures guildId.Missing? ==> r == ChannelList([])
    ensures guildId.Malformed? <==> r.ServerError?
    ensures guildId.Id? && FindGuild(guilds, guildId.n).None? ==> r == ChannelList([])
    ensures guildId.Id? && FindGuild(guilds, guildId.n).Some? ==>
              var listed := ListedChannels(FindGuild(guilds, guildId.n).value);
              && r.ChannelList?
              && |r.channels| == |listed| == |Sendable(FindGuild(guilds, guildId.n).value.channels)|
              && forall i :: 0 <= i < |listed| ==> r.channels[i] == Info(listed[i])
    ensures r.ChannelList? ==> forall i, j :: 0 <= i < j < |r.channels| ==> r.channels[i].position <= r.channels[j].position
  {
    match guildId
    case Missing => ChannelList([])
    case Malformed => ServerError
    case Id(n) =>
      match FindGuild(guilds, n)
      case None => ChannelList([])
      case Some(g) => ChannelList(Infos(ListedChannels(g)))
  }

  // ---------------------------------------------------------------------
  // Target selection: `api_send`
  // ---------------------------------------------------------------------

  /** One element of the bulk id list: something `int()` accepts, or not. */
  datatype IdEntry = BadEntry | EntryId(n: int)

  /**
    The `channel_ids` form field: absent or empty, text `json.loads` cannot
    iterate over, or the entries it yields.
   */
  datatype IdList = NoList | BadJson | Entries(entries: seq<IdEntry>)

  /** The fields of an `api_send` request that decide where it goes. */
  datatype SendForm = SendForm(
    signedIn: bool,
    guildId: IdField,
    channelId: IdField,
    channelIds: IdList,
    bulk: bool)

  /**
    The error replies of `api_send`. `InvalidId` is an `int()` failure and
    `UploadFailed` the `get_file_type` failure of the upload loop as written;
    the outer handler reports both.
   */
  datatype SendError = NotAuthenticated | NoGuildSpecified | GuildNotFound | NoValidChannels | InvalidId | UploadFailed

  /** The reply text of each error whose text does not depend on the request. */
  function ErrorText(e: SendError): Option<string> {
    match e
    case NotAuthenticated => Some("Not authenticated")
    case NoGuildSpecified => Some("No guild specified")
    case GuildNotFound => Some("Guild not found")
    case NoValidChannels => Some("No valid channels specified")
    case InvalidId => None
    case UploadFailed => Some("list index out of range")
  }

  /** The fixed reply texts tell their errors apart. */
  lemma ErrorTextInjective(a: SendError, b: SendError)
    requires ErrorText(a).Some? && ErrorText(a) == ErrorText(b)
    ensures a == b
  {
  }

  /** The channel with id `n`, kept when the bot may post in it (one pass of either branch). */
  function Postable(channels: seq<Channel>, n: int): (r: seq<Channel>)
    ensures |r| <= 1
    ensures forall c :: c in r ==> c in channels && c.id == n && c.canSend
    ensures r == [] <==> FindChannel(channels, n).None? || !FindChannel(channels, n).value.canSend
  {
    match FindChannel(channels, n)
    case Some(c) => if c.canSend then [c] else []
    case None => []
  }

  /** With unique ids, a channel's own id selects it exactly when the bot may post in it. */
  lemma PostableMember(channels: seq<Channel>, c: Channel)
    requires UniqueIds(channels) && c in channels
    ensures Postable(channels, c.id) == (if c.canSend then [c] else [])
  {
    FindChannelOfMember(channels, c);
  }

  /** The ids the bulk loop reaches: every entry before the first one `int()` rejects. */
  function ParsedIds(entries: seq<IdEntry>): (r: seq<int>)
    ensures |r| <= |entries|
    ensures forall i :: 0 <= i < |r| ==> entries[i] == EntryId(r[i])
    ensures |r| < |entries| ==> entries[|r|].BadEntry?
  {
    if |entries| == 0 || entries[0].BadEntry? then []
    else [entries[0].n] + ParsedIds(entries[1..])
  }

  /**
    The bulk loop: a rejected entry ends it through the bare `except`,
    keeping the channels already collected.
   */
  function BulkTargets(channels: seq<Channel>, entries: seq<IdEntry>): (r: seq<Channel>)
    ensures |r| <= |entries|
    ensures forall c :: c in r ==> c in channels && c.canSend && c.id in ParsedIds(entries)
  {
    if |entries| == 0 then []
    else match entries[0]
      case BadEntry => []
      case EntryId(n) => Postable(channels, n) + BulkTargets(channels, entries[1..])
  }

  /**
    With unique channel ids, the bulk loop collects exactly the guild's
    postable channels whose ids it reaches.
   */
  lemma {:induction false} BulkTargetsComplete(channels: seq<Channel>, entries: seq<IdEntry>)
    requires UniqueIds(channels)
    ensures forall c :: c in BulkTargets(channels, entries) <==> c in channels && c.canSend && c.id in ParsedIds(entries)
    decreases |entries|
  {
    if |entries| > 0 && entries[0].EntryId? {
      BulkTargetsComplete(channels, entries[1..]);
      forall c | c in channels && c.canSend && c.id in ParsedIds(entries)
        ensures c in BulkTargets(channels, entries)
      {
        FindChannelOfMember(channels, c);
      }
    }
  }

  /**
    A repeated id is not merged: with unique channel ids, each postable
    channel is a target once for every time the loop reaches its id.
   */
  lemma {:induction false} BulkTargetsCount(channels: seq<Channel>, entries: seq<IdEntry>, c: Channel)
    requires UniqueIds(channels) && c in channels && c.canSend
    ensures multiset(BulkTargets(channels, entries))[c] == multiset(ParsedIds(entries))[c.id]
    decreases |entries|
  {
    if |entries| > 0 && entries[0].EntryId? {
      var n := entries[0].n;
      BulkTargetsCount(channels, entries[1..], c);
      assert BulkTargets(channels, entries) == Postable(channels, n) + BulkTargets(channels, entries[1..]);
      assert ParsedIds(entries) == [n] + ParsedIds(entries[1..]);
      if n == c.id {
        PostableMember(channels, c);
      } else {
        assert c !in Postable(channels, n);
      }
    }
  }

  /** Whether the request takes the bulk branch: `bulk_send and channel_ids`. */
  predicate BulkMode(f: SendForm) {
    f.bulk && !f.channelIds.NoList?
  }

  /** The candidate targets before the emptiness check: the bulk list, or the single id. */
  function Candidates(channels: seq<Channel>, f: SendForm): (r: Result<seq<Channel>, SendError>)
    ensures r.Failure? ==> r.error == InvalidId
    ensures r.Success? ==> forall c :: c in r.value ==> c in channels && c.canSend
    ensures BulkMode(f) ==> r.Success?
    ensures f.channelIds.Entries? && f.bulk ==> r == Success(BulkTargets(channels, f.channelIds.entries))
    ensures f.channelIds.BadJson? && f.bulk ==> r == Success([])
    ensures !BulkMode(f) ==> (r.Failure? <==> f.channelId.Malformed?)
    ensures !BulkMode(f) && f.channelId.Missing? ==> r == Success([])
    ensures !BulkMode(f) && f.channelId.Id? ==> r == Success(Postable(channels, f.channelId.n))
  {
    if BulkMode(f) then
      match f.channelIds
      case BadJson => Success([])
      case Entries(es) => Success(BulkTargets(channels, es))
    else
      match f.channelId
      case Missing => Success([])
      case Malformed => Failure(InvalidId)
      case Id(n) => Success(Postable(channels, n))
  }

  /** The guild a form addresses, once it has been found. */
  function FormGuild(guilds: seq<Guild>, f: SendForm): Option<Guild> {
    if f.guildId.Id? then FindGuild(guilds, f.guildId.n) else None
  }

  /** The target channels of `api_send`, or the error it replies with before sending anything. */
  function SelectTargets(guilds: seq<Guild>, f: SendForm): (r: Result<seq<Channel>, SendError>)
    ensures !f.signedIn ==> r == Failure(NotAuthenticated)
    ensures f.signedIn && f.guildId.Missing? ==> r == Failure(NoGuildSpecified)
    ensures f.signedIn && f.guildId.Malformed? ==> r == Failure(InvalidId)
    ensures f.signedIn && f.guildId.Id? && FindGuild(guilds, f.guildId.n).None? ==> r == Failure(GuildNotFound)
    ensures r.Success? ==> f.signedIn && FormGuild(guilds, f).Some? && |r.value| > 0
    ensures r.Success? ==> forall c :: c in r.value ==> c in FormGuild(guilds, f).value.channels && c.canSend
    ensures f.signedIn && FormGuild(guilds, f).Some? && Candidates(FormGuild(guilds, f).value.channels, f) == Success([])
            ==> r == Failure(NoValidChannels)
    // the single-id branch
    ensures r.Success? && !BulkMode(f) ==>
              f.channelId.Id? && |r.value| == 1 && r.value[0].id == f.channelId.n
    ensures f.signedIn && FormGuild(guilds, f).Some? && !BulkMode(f) ==>
              && (f.channelId.Missing? ==> r == Failure(NoValidChannels))
              && (f.channelId.Malformed? ==> r == Failure(InvalidId))
    ensures f.signedIn && FormGuild(guilds, f).Some? && !BulkMode(f) && f.channelId.Id? ==>
              var found := FindChannel(FormGuild(guilds, f).value.channels, f.channelId.n);
              && (found.Some? && found.value.canSend ==> r == Success([found.value]))
              && (found.None? || !found.value.canSend ==> r == Failure(NoValidChannels))
    // the bulk branch
    ensures f.signedIn && FormGuild(guilds, f).Some? && f.bulk && f.channelIds.BadJson? ==>
              r == Failure(NoValidChannels)
    ensures f.signedIn && FormGuild(guilds, f).Some? && BulkMode(f) && r.Failure? ==> r.error == NoValidChannels
  {
    if !f.signedIn then Failure(NotAuthenticated)
    else match f.guildId
      case Missing => Failure(NoGuildSpecified)
      case Malformed => Failure(InvalidId)
      case Id(n) =>
        match FindGuild(guilds, n)
        case None => Failure(GuildNotFound)
        case Some(g) =>
          match Candidates(g.channels, f)
          case Failure(e) => Failure(e)
          case Success(targets) => if targets == [] then Failure(NoValidChannels) else Success(targets)
  }

  /**
    The bulk branch, with unique channel ids: the request succeeds exactly
    when some postable channel of the guild has an id the loop reaches; the
    targets are those channels, each once per occurrence of its id.
   */
  lemma SelectBulk(guilds: seq<Guild>, f: SendForm, g: Guild)
    requires f.signedIn && f.guildId.Id? && FindGuild(guilds, f.guildId.n) == Some(g)
    requires f.bulk && f.channelIds.Entries? && UniqueIds(g.channels)
    ensures var ids := ParsedIds(f.channelIds.entries);
      SelectTargets(guilds, f).Success? <==> exists c :: c in g.channels && c.canSend && c.id in ids
    ensures var ids := ParsedIds(f.channelIds.entries);
      SelectTargets(guilds, f).Success? ==>
        forall c :: c in SelectTargets(guilds, f).value <==> c in g.channels && c.canSend && c.id in ids
    ensures var ids := ParsedIds(f.channelIds.entries);
      SelectTargets(guilds, f).Success? ==>
        forall c :: c in g.channels && c.canSend ==> multiset(SelectTargets(guilds, f).value)[c] == multiset(ids)[c.id]
  {
    var es := f.channelIds.entries;
    var targets := BulkTargets(g.channels, es);
    SelectBulkTargets(guilds, f, g);
    BulkTargetsComplete(g.channels, es);
    if exists c :: c in g.channels && c.canSend && c.id in ParsedIds(es) {
      var c :| c in g.channels && c.canSend && c.id in ParsedIds(es);
      assert c in targets;
    }
    forall c | c in g.channels && c.canSend
      ensures multiset(targets)[c] == multiset(ParsedIds(es))[c.id]
    {
      BulkTargetsCount(g.channels, es, c);
    }
  }

  /** In the bulk branch the targets are the bulk loop's, and an empty loop result is the only failure. */
  lemma SelectBulkTargets(guilds: seq<Guild>, f: SendForm, g: Guild)
    requires f.signedIn && f.guildId.Id? && FindGuild(guilds, f.guildId.n) == Some(g)
    requires f.bulk && f.channelIds.Entries?
    ensures var targets := BulkTargets(g.channels, f.channelIds.entries);
      SelectTargets(guilds, f) == if targets == [] then Failure(NoValidChannels) else Success(targets)
  {
    assert Candidates(g.channels, f) == Success(BulkTargets(g.channels, f.channelIds.entries));
  }

  /** Unlike the listing, sending checks only the permission: a voice channel may be a target. */
  lemma SendDoesNotRequireText(guilds: seq<Guild>, f: SendForm, c: Channel)
    requires f.signedIn && f.guildId.Id? && f.channelId.Id? && !f.bulk
    requires FindGuild(guilds, f.guildId.n).Some?
    requires FindChannel(FindGuild(guilds, f.guildId.n).value.channels, f.channelId.n) == Some(c)
    requires c.canSend && c.kind == VoiceChannel
    ensures SelectTargets(guilds, f) == Success([c])
  {
  }

  // ---------------------------------------------------------------------
  // Sending: the upload and send loops of `api_send`
  // ---------------------------------------------------------------------

  /** What `api_send` does for one target: the message it sends and the history preview it logs. */
  datatype Delivery = Delivery(channel: Channel, message: Messages.Outgoing, preview: string)

  /**
    The reply of `api_send`: the deliveries made (their number is the
    reported `sent_count`) and the uploads stored, or an error.
   */
  datatype SendReply = Sent(deliveries: seq<Delivery>, stored: seq<StoredFile>) | Failed(error: SendError)

  /**
    Whether channels of this kind have a `send` coroutine. In discord.py
    categories and forums are not messageable, so `send` on one raises
    `AttributeError` inside the caller's `try`.
   */
  predicate HasSend(k: ChannelKind) {
    k != CategoryChannel && k != ForumChannel
  }

  /** A channel whose `send` exists. */
  predicate Messageable(c: Channel) {
    HasSend(c.kind)
  }

  /** The channels the deliveries went to, in delivery order. */
  function Recipients(ds: seq<Delivery>): (r: seq<Channel>)
    ensures |r| == |ds|
    ensures forall i :: 0 <= i < |r| ==> r[i] == ds[i].channel
  {
    if |ds| == 0 then [] else [ds[0].channel] + Recipients(ds[1..])
  }

  /** One delivery per target, in target order, all carrying the same message and preview. */
  function Deliveries(targets: seq<Channel>, message: Messages.Outgoing, preview: string): (r: seq<Delivery>)
    ensures |r| == |targets|
    ensures forall i :: 0 <= i < |r| ==> r[i].channel == targets[i] && r[i].message == message && r[i].preview == preview
  {
    if |targets| == 0 then []
    else [Delivery(targets[0], message, preview)] + Deliveries(targets[1..], message, preview)
  }

  /**
    The send loop: every target with a `send` gets the composed message, in
    target order. An embed colour `discord.Color.from_str` rejects raises
    inside the loop's `try` for every target, so then none is sent; a
    category or forum target raises at its `send` and is skipped.
   */
  function SendLoop(targets: seq<Channel>, title: string, content: string, embed: bool, colourOk: bool): (r: seq<Delivery>)
    ensures Recipients(r) == if embed && !colourOk then [] else Seqs.Filter(targets, Messageable)
    ensures forall i :: 0 <= i < |r| ==>
      && r[i].message == Messages.Compose(title, content, embed)
      && r[i].preview == Messages.Preview(content, Messages.HistoryPreviewLimit)
  {
    if embed && !colourOk then []
    else
      var ds := Deliveries(Seqs.Filter(targets, Messageable), Messages.Compose(title, content, embed),
                           Messages.Preview(content, Messages.HistoryPreviewLimit));
      assert Recipients(ds) == Seqs.Filter(targets, Messageable);
      ds
  }

  /**
    `api_send`, with uploads typed by the name `allowed_file` accepted:
    nothing is sent when target selection fails; otherwise every accepted
    upload is stored and every target with a `send` gets one delivery per
    occurrence among the targets, in target order, unless the embed colour
    is malformed.
   */
  function Send(guilds: seq<Guild>, f: SendForm, title: string, content: string, embed: bool,
                colourOk: bool, uploads: seq<string>): (r: SendReply)
    ensures r.Failed? <==> SelectTargets(guilds, f).Failure?
    ensures r.Failed? ==> r.error == SelectTargets(guilds, f).error
    ensures r.Sent? ==> r.stored == StoredFiles(uploads)
    ensures r.Sent? ==>
      var targets := SelectTargets(guilds, f).value;
      && Recipients(r.deliveries) == (if embed && !colourOk then [] else Seqs.Filter(targets, Messageable))
      && |r.deliveries| == (if embed && !colourOk then 0 else |Seqs.Filter(targets, Messageable)|)
      && (forall c :: multiset(Recipients(r.deliveries))[c] ==
            if HasSend(c.kind) && !(embed && !colourOk) then multiset(targets)[c] else 0)
      && forall i :: 0 <= i < |r.deliveries| ==>
           && r.deliveries[i].channel in targets
           && HasSend(r.deliveries[i].channel.kind)
           && r.deliveries[i].channel.canSend
           && r.deliveries[i].channel in FormGuild(guilds, f).value.channels
           && r.deliveries[i].message == Messages.Compose(title, content, embed)
           && r.deliveries[i].preview == Messages.Preview(content, Messages.HistoryPreviewLimit)
  {
    match SelectTargets(guilds, f)
    case Failure(e) => Failed(e)
    case Success(targets) =>
      SendLoopDelivers(targets, title, content, embed, colourOk);
      Sent(SendLoop(targets, title, content, embed, colourOk), StoredFiles(uploads))
  }

  /**
    What the send loop's deliveries amount to: as many as the targets with a
    `send` (the reported `sent_count`), each such target as often as it is
    listed, and no delivery to anything else.
   */
  lemma SendLoopDelivers(targets: seq<Channel>, title: string, content: string, embed: bool, colourOk: bool)
    ensures var r := SendLoop(targets, title, content, embed, colourOk);
      && |r| == (if embed && !colourOk then 0 else |Seqs.Filter(targets, Messageable)|)
      && (forall c :: multiset(Recipients(r))[c] ==
            if HasSend(c.kind) && !(embed && !colourOk) then multiset(targets)[c] else 0)
      && forall i :: 0 <= i < |r| ==> r[i].channel in targets && HasSend(r[i].channel.kind)
  {
    var r := SendLoop(targets, title, content, embed, colourOk);
    var kept := Seqs.Filter(targets, Messageable);
    if embed && !colourOk {
      assert Recipients(r) == [];
    } else {
      assert Recipients(r) == kept;
      forall i | 0 <= i < |r|
        ensures r[i].channel in targets && HasSend(r[i].channel.kind)
      {
        assert r[i].channel == kept[i];
      }
    }
  }

  /**
    `api_send` as written: the type of each stored upload is asked of its
    secured name, and when that name has no `.` the outer handler replies
    with an error after the targets were chosen. Without such an upload it
    replies as the corrected request does.
   */
  function SendAsWritten(guilds: seq<Guild>, f: SendForm, title: string, content: string, embed: bool,
                         colourOk: bool, uploads: seq<string>): (r: SendReply)
    ensures SelectTargets(guilds, f).Failure? ==> r == Failed(SelectTargets(guilds, f).error)
    ensures SelectTargets(guilds, f).Success? ==>
              (r == Failed(UploadFailed) <==> exists u :: u in uploads && AllowedFile(u) && '.' !in SecureName(u))
    ensures r.Sent? ==> r.deliveries == SendLoop(SelectTargets(guilds, f).value, title, content, embed, colourOk)
    ensures SelectTargets(guilds, f).Success? && !(exists u :: u in uploads && AllowedFile(u) && '.' !in SecureName(u))
            ==> r == Send(guilds, f, title, content, embed, colourOk, uploads)
  {
    match SelectTargets(guilds, f)
    case Failure(e) => Failed(e)
    case Success(targets) =>
      match StoredFilesAsWritten(uploads)
      case None => Failed(UploadFailed)
      case Some(stored) => Sent(SendLoop(targets, title, content, embed, colourOk), stored)
  }

  /**
    An upload named `.png` makes the request as written fail although its
    targets were chosen; with the corrected upload loop it is sent.
   */
  lemma DotNameFailsSend(guilds: seq<Guild>, f: SendForm, title: string, content: string, embed: bool, colourOk: bool)
    requires SelectTargets(guilds, f).Success?
    ensures SendAsWritten(guilds, f, title, content, embed, colourOk, [".png"]) == Failed(UploadFailed)
    ensures Send(guilds, f, title, content, embed, colourOk, [".png"]).Sent?
  {
    DotNameAborts();
  }

  // ---------------------------------------------------------------------
  // Scheduled delivery: the timer callback of `api_schedule`
  // ---------------------------------------------------------------------

  /** What the timer callback sends: the channel and the composed message. */
  datatype ScheduledSend = ScheduledSend(channel: Channel, message: Messages.Outgoing)

  /**
    `send_scheduled_message`: when the timer fires, the guild and channel are
    looked up again and the message goes out only if the bot may still post
    there; a failed `int()`, a malformed embed colour or a channel without
    `send` raises into the callback's `except`, which swallows it.
   */
  function DeliverScheduled(guilds: seq<Guild>, guildId: IdField, channelId: IdField,
                            title: string, content: string, embed: bool, colourOk: bool): (r: Option<ScheduledSend>)
    ensures r.Some? <==>
      && guildId.Id? && channelId.Id?
      && FindGuild(guilds, guildId.n).Some?
      && FindChannel(FindGuild(guilds, guildId.n).value.channels, channelId.n).Some?
      && FindChannel(FindGuild(guilds, guildId.n).value.channels, channelId.n).value.canSend
      && HasSend(FindChannel(FindGuild(guilds, guildId.n).value.channels, channelId.n).value.kind)
      && (embed ==> colourOk)
    ensures r.Some? ==>
      && r.value.channel == FindChannel(FindGuild(guilds, guildId.n).value.channels, channelId.n).value
      && r.value.message == Messages.Compose(title, content, embed)
  {
    if !guildId.Id? || !channelId.Id? then None
    else match FindGuild(guilds, guildId.n)
      case None => None
      case Some(g) =>
        match FindChannel(g.channels, channelId.n)
        case None => None
        case Some(c) =>
          if c.canSend && HasSend(c.kind) && (embed ==> colourOk) then Some(ScheduledSend(c, Messages.Compose(title, content, embed)))
          else None
  }
}

=== FILE: countdown.dfy ===
/**
  The schedule list's countdown badge: `formatTimeLeft(ms)` splits a
  millisecond count into days, hours and minutes with JavaScript's
  `Math.floor` and `%`, and prints the two leading units (or minutes alone).
 */
module Countdown {
  import opened Results
  import opened Text

  const MsPerMinute: int := 1000 * 60
  const MsPerHour: int := 1000 * 60 * 60
  const MsPerDay: int := 1000 * 60 * 60 * 24

  /** JavaScript `Math.floor(a / b)` for a positive divisor: the greatest `q` with `q * b <= a`. */
  function FloorDiv(a: int, b: int): (q: int)
    requires b > 0
    ensures q * b <= a < q * b + b
  {
    a / b
  }

  /** JavaScript `a % b` for a positive divisor: the remainder keeps the sign of `a`. */
  function TruncRem(a: int, b: int): (r: int)
    requires b > 0
    ensures -b < r < b
    ensures a >= 0 ==> r >= 0
    ensures a < 0 ==> r <= 0
    ensures exists q :: a == q * b + r
  {
    if a >= 0 then
      assert a == (a / b) * b + a % b;
      a % b
    else
      assert -a == ((-a) / b) * b + (-a) % b;
      assert a == (-((-a) / b)) * b + -((-a) % b);
      -((-a) % b)
  }

  /** The three fields `formatTimeLeft` computes. */
  datatype TimeLeft = TimeLeft(days: int, hours: int, minutes: int)

  /** The milliseconds a split stands for. */
  function Millis(t: TimeLeft): int {
    t.days * MsPerDay + t.hours * MsPerHour + t.minutes * MsPerMinute
  }

  /** The `days`, `hours` and `minutes` constants of `formatTimeLeft`. */
  function Split(ms: int): (t: TimeLeft)
    ensures ms > 0 ==> t.days >= 0 && 0 <= t.hours < 24 && 0 <= t.minutes < 60
    ensures ms > 0 ==> Millis(t) <= ms < Millis(t) + MsPerMinute
  {
    var t := TimeLeft(
      FloorDiv(ms, MsPerDay),
      FloorDiv(TruncRem(ms, MsPerDay), MsPerHour),
      FloorDiv(TruncRem(ms, MsPerHour), MsPerMinute));
    if ms > 0 then SplitDecomposes(ms); t else t
  }

  /** For a positive count JavaScript's floor and `%` agree with Euclidean division. */
  lemma SplitPositive(ms: int)
    requires ms > 0
    ensures Split(ms) == TimeLeft(ms / MsPerDay, ms % MsPerDay / MsPerHour, ms % MsPerHour / MsPerMinute)
  {
  }

  /** Euclidean quotient and remainder are the only ones with the remainder in range. */
  lemma DivModUnique(a: int, b: int, q: int, r: int)
    requires b > 0 && a == q * b + r && 0 <= r < b
    ensures q == a / b && r == a % b
  {
    var q', r' := a / b, a % b;
    assert a == q' * b + r';
    var k := q - q';
    assert k * b == r' - r by {
      assert q * b - q' * b == (q - q') * b;
    }

  }

  /** For a positive count the three fields are the mixed-radix digits of `ms`. */
  lemma SplitDecomposes(ms: int)
    requires ms > 0
    ensures var d, h, m := ms / MsPerDay, (ms % MsPerDay) / MsPerHour, (ms % MsPerHour) / MsPerMinute;
      && d >= 0 && 0 <= h < 24 && 0 <= m < 60
      && d * MsPerDay + h * MsPerHour + m * MsPerMinute <= ms < d * MsPerDay + h * MsPerHour + m * MsPerMinute + MsPerMinute
  {
    var d, rd := ms / MsPerDay, ms % MsPerDay;
    var h, rh := rd / MsPerHour, rd % MsPerHour;
    assert ms == d * MsPerDay + rd;
    assert rd == h * MsPerHour + rh;
    DivModUnique(ms, MsPerHour, d * 24 + h, rh);
    var m := rh / MsPerMinute;
    assert rh == m * MsPerMinute + rh % MsPerMinute;
  }

  /** One `${n}<unit>` piece of the badge. */
  function Token(n: int, unit: char): string {
    IntToDecimal(n) + [unit]
  }

  /** Two pieces separated by a space, as in `${days}d ${hours}h`. */
  function Pair(a: int, u: char, b: int, v: char): string {
    Token(a, u) + " " + Token(b, v)
  }

  /** The three shapes of the badge text, chosen by the leading non-zero unit. */
  function Layout(t: TimeLeft): string {
    if t.days > 0 then Pair(t.days, 'd', t.hours, 'h')
    else if t.hours > 0 then Pair(t.hours, 'h', t.minutes, 'm')
    else Token(t.minutes, 'm')
  }

  /**
    The badge text for a split: two leading units, or minutes alone. A split
    with no negative field renders to a badge that reads back as exactly the
    fields it displays.
   */
  function Render(t: TimeLeft): (r: string)
    ensures t.days >= 0 && t.hours >= 0 && t.minutes >= 0 ==> ReadBadge(r) == Some(Displayed(t))
  {
    if t.days > 0 then
      ReadBadgePair(t.days, 'd', t.hours, 'h');
      Pair(t.days, 'd', t.hours, 'h')
    else if t.hours > 0 then
      ReadBadgePair(t.hours, 'h', t.minutes, 'm');
      Pair(t.hours, 'h', t.minutes, 'm')
    else
      ReadBadgeSingle(t.minutes, 'm');
      Token(t.minutes, 'm')
  }

  /**
    `formatTimeLeft(ms)`. For a positive count the badge reads back, and the
    fields it shows add up to exactly the time it displays.
   */
  function FormatTimeLeft(ms: int): (r: string)
    ensures ms > 0 ==> ReadBadge(r).Some?
    ensures ms > 0 ==>
      var fs := ReadBadge(r).value;
      && (forall i :: 0 <= i < |fs| ==> IsUnit(fs[i].unit))
      && Value(fs) == Shown(ms)
  {
    var t := Split(ms);
    if ms > 0 then
      DisplayedValue(t);
      Render(t)
    else
      Render(t)
  }

  /** The milliseconds a split displays: its two printed units, the rest dropped. */
  function ShownOf(t: TimeLeft): int {
    if t.days > 0 then t.days * MsPerDay + t.hours * MsPerHour
    else t.hours * MsPerHour + t.minutes * MsPerMinute
  }

  /** The milliseconds the badge for `ms` displays. */
  function Shown(ms: int): int {
    ShownOf(Split(ms))
  }

  /** The smallest unit the badge prints: hours once a day is left, minutes otherwise. */
  function Resolution(ms: int): int {
    if Split(ms).days > 0 then MsPerHour else MsPerMinute
  }

  /**
    The badge never overstates the time left, and understates it by less
    than the smallest unit it prints.
   */
  lemma ShownBounds(ms: int)
    requires ms > 0
    ensures Shown(ms) <= ms < Shown(ms) + Resolution(ms)
  {
    var t := Split(ms);
    if t.days > 0 {
      assert t.minutes * MsPerMinute + MsPerMinute <= MsPerHour;
    }
  }

  /** The unit letters a badge uses. */
  predicate IsUnit(c: char) {
    c == 'd' || c == 'h' || c == 'm'
  }

  /** Milliseconds per unit letter. */
  function UnitMillis(c: char): int
    requires IsUnit(c)
  {
    if c == 'd' then MsPerDay else if c == 'h' then MsPerHour else MsPerMinute
  }

  /** One field of a badge as a reader sees it: a count and its unit letter. */
  datatype Field = Field(count: nat, unit: char)

  /** The fields a split is displayed with, most significant first. */
  function Displayed(t: TimeLeft): seq<Field>
    requires t.days >= 0 && t.hours >= 0 && t.minutes >= 0
  {
    if t.days > 0 then [Field(t.days, 'd'), Field(t.hours, 'h')]
    else if t.hours > 0 then [Field(t.hours, 'h'), Field(t.minutes, 'm')]
    else [Field(t.minutes, 'm')]
  }

  /** The milliseconds a sequence of badge fields stands for. */
  function Value(fs: seq<Field>): int
    requires forall i :: 0 <= i < |fs| ==> IsUnit(fs[i].unit)
  {
    if |fs| == 0 then 0 else fs[0].count * UnitMillis(fs[0].unit) + Value(fs[1..])
  }

  /** The displayed fields add up to the time the badge shows. */
  lemma DisplayedValue(t: TimeLeft)
    requires t.days >= 0 && t.hours >= 0 && t.minutes >= 0
    ensures Value(Displayed(t)) == ShownOf(t)
  {
    var fs := Displayed(t);
    if |fs| == 2 {
      assert fs[1..][1..] == [];
      assert Value(fs[1..]) == fs[1].count * UnitMillis(fs[1].unit) + Value(fs[1..][1..]);
      assert Value(fs) == fs[0].count * UnitMillis(fs[0].unit) + fs[1].count * UnitMillis(fs[1].unit);
    } else {
      assert fs[1..] == [];
    }
  }

  /** One `<digits><unit>` token of a badge, if it is one. */
  function ReadToken(tok: string): Option<Field> {
    if |tok| < 2 || !AllDigits(tok[..|tok| - 1]) || !IsUnit(tok[|tok| - 1]) then None
    else Some(Field(DecimalValue(tok[..|tok| - 1]), tok[|tok| - 1]))
  }

  /** The fields of a badge: one token, or two tokens separated by the first space. */
  function ReadBadge(s: string): Option<seq<Field>> {
    match FirstIndexOf(s, ' ')
    case None => (match ReadToken(s) case Some(f) => Some([f]) case None => None)
    case Some(k) =>
      match (ReadToken(s[..k]), ReadToken(s[k + 1..]))
      case (Some(f), Some(g)) => Some([f, g])
      case _ => None
  }

  /** A rendered count followed by its unit letter reads back as that field. */
  lemma ReadTokenRendered(n: nat, unit: char)
    requires IsUnit(unit)
    ensures ReadToken(Token(n, unit)) == Some(Field(n, unit))
  {
    var tok := Token(n, unit);
    assert tok[..|tok| - 1] == NatToDecimal(n);
    DecimalRoundTrip(n);
  }

  /** A rendered count followed by a unit letter holds no space. */
  lemma RenderedTokenHasNoSpace(n: nat, unit: char)
    requires IsUnit(unit)
    ensures ' ' !in Token(n, unit)
  {
    var x := Token(n, unit);
    assert forall i :: 0 <= i < |x| - 1 ==> x[i] == NatToDecimal(n)[i];
  }

  /** Two tokens joined by a space, the first holding no space, read as their two fields. */
  lemma ReadBadgeJoin(x: string, y: string)
    requires ' ' !in x
    requires ReadToken(x).Some? && ReadToken(y).Some?
    ensures ReadBadge(x + " " + y) == Some([ReadToken(x).value, ReadToken(y).value])
  {
    var s := x + " " + y;
    assert s == x + [' '] + y;
    FirstIndexAfterPrefix(x, ' ', y);
    assert s[..|x|] == x && s[|x| + 1..] == y;
  }

  /** A two-unit badge with no negative count reads back as its two fields. */
  lemma ReadBadgePair(a: int, u: char, b: int, v: char)
    requires IsUnit(u) && IsUnit(v)
    ensures a >= 0 && b >= 0 ==> ReadBadge(Pair(a, u, b, v)) == Some([Field(a, u), Field(b, v)])
  {
    if a >= 0 && b >= 0 {
      var x, y := Token(a, u), Token(b, v);
      RenderedTokenHasNoSpace(a, u);
      ReadTokenRendered(a, u);
      ReadTokenRendered(b, v);
      ReadBadgeJoin(x, y);
    }
  }

  /** A one-unit badge with a non-negative count reads back as its field. */
  lemma ReadBadgeSingle(n: int, u: char)
    requires IsUnit(u)
    ensures n >= 0 ==> ReadBadge(Token(n, u)) == Some([Field(n, u)])
  {
    if n >= 0 {
      RenderedTokenHasNoSpace(n, u);
      ReadTokenRendered(n, u);
    }
  }

  /** The three output shapes, chosen by how large the count is. */
  lemma FormatTimeLeftShape(ms: int)
    requires ms > 0
    ensures ms >= MsPerDay ==>
              FormatTimeLeft(ms) == Pair(ms / MsPerDay, 'd', ms % MsPerDay / MsPerHour, 'h')
    ensures MsPerHour <= ms < MsPerDay ==>
              FormatTimeLeft(ms) == Pair(ms / MsPerHour, 'h', ms % MsPerHour / MsPerMinute, 'm')
    ensures ms < MsPerHour ==> FormatTimeLeft(ms) == Token(ms / MsPerMinute, 'm')
  {
    LayoutShape(ms);
    LayoutOfSplit(ms);
  }

  /** The layout of a positive count's split, by threshold. */
  lemma LayoutShape(ms: int)
    requires ms > 0
    ensures ms >= MsPerDay ==>
              Layout(Split(ms)) == Pair(ms / MsPerDay, 'd', ms % MsPerDay / MsPerHour, 'h')
    ensures MsPerHour <= ms < MsPerDay ==>
              Layout(Split(ms)) == Pair(ms / MsPerHour, 'h', ms % MsPerHour / MsPerMinute, 'm')
    ensures ms < MsPerHour ==> Layout(Split(ms)) == Token(ms / MsPerMinute, 'm')
  {
    SplitPositive(ms);
    var t := Split(ms);
    if ms >= MsPerDay {
      assert t.days >= 1;
    } else {
      DivModUnique(ms, MsPerDay, 0, ms);
      assert t.days == 0 && t.hours == ms / MsPerHour;
      if ms < MsPerHour {
        DivModUnique(ms, MsPerHour, 0, ms);
        assert t.hours == 0;
      } else {
        assert t.hours > 0;
      }
    }
  }


  /** The badge text is the layout of the split, whatever else is known of it. */
  lemma LayoutOfSplit(ms: int)
    ensures FormatTimeLeft(ms) == Layout(Split(ms))
  {
    var t := Split(ms);
    assert FormatTimeLeft(ms) == Render(t);
    assert Render(t) == Layout(t);
  }

}

=== FILE: messages.dfy ===
/**
  What the dashboard sends and logs for one target channel: the text of a
  plain (non-embed) message, the embed envelope, and the shortened preview
  kept in the message history and shown in the schedule list.
 */
module Messages {
  import opened Results

  /** The bold-title prefix a plain message gets: `**title**` and a blank line. */
  function TitlePrefix(title: string): string {
    "**" + title + "**\n\n"
  }

  /** `f"**{title}**\n\n{content}" if title else content`. */
  function PlainBody(title: string, content: string): (r: string)
    ensures |r| == |content| + (if title == [] then 0 else |title| + 6)
    ensures r[|r| - |content|..] == content
    ensures title == [] ==> r == content
    ensures title != [] ==> r[..2] == "**" && r[2..2 + |title|] == title && r[2 + |title|..6 + |title|] == "**\n\n"
  {
    if title == [] then content else TitlePrefix(title) + content
  }

  /**
    With non-empty titles free of `*`, the body determines both the title and
    the content: no two different messages are sent as the same text.
   */
  lemma PlainBodyInjective(t1: string, c1: string, t2: string, c2: string)
    requires t1 != [] && t2 != [] && '*' !in t1 && '*' !in t2
    requires PlainBody(t1, c1) == PlainBody(t2, c2)
    ensures t1 == t2 && c1 == c2
  {
    var r := PlainBody(t1, c1);
    if |t1| < |t2| {
      TitleEnd(t1, c1, t2, c2);
      assert false;
    } else if |t2| < |t1| {
      TitleEnd(t2, c2, t1, c1);
      assert false;
    }
    assert t1 == r[2..2 + |t1|] == t2;
    assert |c1| == |c2|;
  }

  /** Where the shorter title's closing `*` falls, the longer title has a character of its own. */
  lemma TitleEnd(t1: string, c1: string, t2: string, c2: string)
    requires t1 != [] && |t1| < |t2|
    ensures PlainBody(t1, c1)[2 + |t1|] == '*'
    ensures PlainBody(t2, c2)[2 + |t1|] == t2[|t1|]
  {
  }

  /**
    An empty title adds nothing, so a content that itself starts with a bold
    line is sent exactly as a titled message would be.
   */
  lemma EmptyTitleIsAmbiguous(title: string, content: string)
    requires title != []
    ensures PlainBody("", PlainBody(title, content)) == PlainBody(title, content)
  {
  }

  /** Characters kept by the history log's preview. */
  const HistoryPreviewLimit: nat := 100

  /**
    `content[:limit] + '...' if len(content) > limit else content`; the
    schedule list's `substring(0, 80)` followed by `'...'` only when longer
    is the same function with limit 80.
   */
  function Preview(content: string, limit: nat): (r: string)
    ensures |content| <= limit ==> r == content
    ensures |content| > limit ==> |r| == limit + 3 && r[..limit] == content[..limit] && r[limit..] == "..."
    ensures |r| <= limit + 3
  {
    if |content| > limit then content[..limit] + "..." else content
  }

  /** The preview starts with as much of the content as fits in the limit. */
  lemma PreviewKeepsPrefix(content: string, limit: nat)
    ensures var n := if |content| < limit then |content| else limit;
      Preview(content, limit)[..n] == content[..n]
  {
  }

  /** Shortening a preview again changes nothing. */
  lemma PreviewIdempotent(content: string, limit: nat)
    ensures Preview(Preview(content, limit), limit) == Preview(content, limit)
  {
    var p := Preview(content, limit);
    if |content| > limit {
      assert p[..limit] == content[..limit];
      assert Preview(p, limit) == p[..limit] + "...";
    }
  }

  /** What is sent to one channel: plain text, or an embed with an optional title. */
  datatype Outgoing =
    | PlainMessage(text: string)
    | EmbedMessage(title: Option<string>, description: string)

  /**
    The message `api_send` and the scheduled sender build for one channel:
    an embed whose title is `title if title else None` and whose
    description is the content, or the plain body.
   */
  function Compose(title: string, content: string, embed: bool): (m: Outgoing)
    ensures embed <==> m.EmbedMessage?
    ensures m.EmbedMessage? ==> m.description == content && (m.title.None? <==> title == [])
    ensures m.EmbedMessage? && m.title.Some? ==> m.title.value == title
    ensures m.PlainMessage? ==> m.text == PlainBody(title, content)
    ensures m.PlainMessage? ==> |m.text| >= |content| && m.text[|m.text| - |content|..] == content
  {
    if embed then EmbedMessage(if title == [] then None else Some(title), content)
    else PlainMessage(PlainBody(title, content))
  }
}

=== FILE: results.dfy ===
/** Failure-carrying datatypes shared by the dashboard model. */
module Results {

  /** A value that may be absent, as Python's `None` or a missing dictionary entry. */
  datatype Option<+T> = None | Some(value: T) {

    /** The carried value, or `default` when there is none. */
    function GetOr(default: T): T {
      match this
      case Some(v) => v
      case None => default
    }
  }

  /** The outcome of a request handler: a value, or the error string the handler reports. */
  datatype Result<+T, +E> = Success(value: T) | Failure(error: E)
}

=== FILE: seqs.dfy ===
/** Sequence helpers shared by the dashboard model. */
module Seqs {

  /**
    The elements of `s` that satisfy `keep`, in their order in `s`: a list
    comprehension `[x for x in s if keep(x)]`. Each kept value occurs as
    often as in `s`, every other value not at all.
   */
  function Filter<T(!new)>(s: seq<T>, keep: T -> bool): (r: seq<T>)
    ensures |r| <= |s|
    ensures forall i :: 0 <= i < |r| ==> keep(r[i])
    ensures forall x :: x in r <==> x in s && keep(x)
    ensures forall x :: multiset(r)[x] == if keep(x) then multiset(s)[x] else 0
  {
    if |s| == 0 then []
    else
      assert s == [s[0]] + s[1..];
      (if keep(s[0]) then [s[0]] else []) + Filter(s[1..], keep)
  }

  /** A one-element sequence whose element is kept is its own filter. */
  lemma FilterSingle<T(!new)>(x: T, keep: T -> bool)
    requires keep(x)
    ensures Filter([x], keep) == [x]
  {
    assert [x][1..] == [];
  }

  /** Filtering a concatenation filters each part in turn: the kept elements keep their order. */
  lemma {:induction false} FilterConcat<T(!new)>(a: seq<T>, b: seq<T>, keep: T -> bool)
    ensures Filter(a + b, keep) == Filter(a, keep) + Filter(b, keep)
  {
    if |a| == 0 {
      assert a + b == b;
      assert Filter(a, keep) == [];
      assert [] + Filter(b, keep) == Filter(b, keep);
    } else {
      var h := if keep(a[0]) then [a[0]] else [];
      assert (a + b)[0] == a[0] && (a + b)[1..] == a[1..] + b;
      assert Filter(a + b, keep) == h + Filter(a[1..] + b, keep);
      FilterConcat(a[1..], b, keep);
      assert Filter(a, keep) == h + Filter(a[1..], keep);
      AppendAssoc(h, Filter(a[1..], keep), Filter(b, keep));
    }
  }

  lemma AppendAssoc<T>(p: seq<T>, q: seq<T>, r: seq<T>)
    ensures p + (q + r) == (p + q) + r
  {
  }

  /** The filter of a non-empty sequence: its head when kept, then the filter of its tail. */
  lemma FilterCons<T(!new)>(s: seq<T>, keep: T -> bool)
    requires |s| > 0
    ensures Filter(s, keep) == (if keep(s[0]) then [s[0]] else []) + Filter(s[1..], keep)
  {
  }

  /**
    A sequence made by applying `f` to each element of `a`, where `a` is an
    optional head followed by `b`, is `f` of that head followed by the
    sequence made from `b`.
   */
  lemma MapCons<T, U>(f: T --> U, a: seq<T>, b: seq<T>, x: T, kept: bool, r: seq<U>, rest: seq<U>)
    requires kept ==> f.requires(x)
    requires a == (if kept then [x] else []) + b
    requires |r| == |a| && forall i :: 0 <= i < |a| ==> f.requires(a[i]) && r[i] == f(a[i])
    requires |rest| == |b| && forall i :: 0 <= i < |b| ==> f.requires(b[i]) && rest[i] == f(b[i])
    ensures r == (if kept then [f(x)] else []) + rest
  {
    var head := if kept then [f(x)] else [];
    forall i | 0 <= i < |r| ensures r[i] == (head + rest)[i] {
      if i >= |head| {
        assert a[i] == b[i - |head|];
      }
    }
  }
}

=== FILE: text.dfy ===
/**
  String helpers the dashboard relies on: ASCII lowercasing (Python's
  `str.lower` restricted to ASCII), the position of the last or first
  occurrence of a character (what `str.rsplit(sep, 1)` and a split at
  the first separator look at), and decimal rendering of integers (Python's
  `str(int)` and a JavaScript template literal `${n}`) together with its
  inverse.
 */
module Text {
  import opened Results

  /** Lowercases one ASCII letter; every other character is returned unchanged. */
  function LowerChar(c: char): char {
    if 'A' <= c <= 'Z' then (c as int + 32) as char else c
  }

  /** `s.lower()` restricted to ASCII: the same length, each character lowercased. */
  function Lower(s: string): (r: string)
    ensures |r| == |s|
    ensures forall i :: 0 <= i < |s| ==> r[i] == LowerChar(s[i])
  {
    if |s| == 0 then [] else [LowerChar(s[0])] + Lower(s[1..])
  }

  /** Index of the last occurrence of `c` in `s`, or `None` when `c` does not occur. */
  function LastIndexOf(s: string, c: char): (r: Option<nat>)
    ensures r.None? <==> c !in s
    ensures r.Some? ==> r.value < |s| && s[r.value] == c && c !in s[r.value + 1..]
  {
    if |s| == 0 then None
    else if s[|s| - 1] == c then Some(|s| - 1)
    else
      assert s == s[..|s| - 1] + [s[|s| - 1]];
      LastIndexOf(s[..|s| - 1], c)
  }

  /** Index of the first occurrence of `c` in `s`, or `None` when `c` does not occur. */
  function FirstIndexOf(s: string, c: char): (r: Option<nat>)
    ensures r.None? <==> c !in s
    ensures r.Some? ==> r.value < |s| && s[r.value] == c && c !in s[..r.value]
  {
    if |s| == 0 then None
    else if s[0] == c then Some(0)
    else
      match FirstIndexOf(s[1..], c)
      case None => None
      case Some(k) =>
        assert s[..k + 1] == [s[0]] + s[1..][..k];
        Some(k + 1)
  }

  /** The first `c` in `a + [c] + b` is the one just after `a` when `a` has none. */
  lemma FirstIndexAfterPrefix(a: string, c: char, b: string)
    requires c !in a
    ensures FirstIndexOf(a + [c] + b, c) == Some(|a|)
  {
    var s := a + [c] + b;
    assert s[|a|] == c;
    assert s[..|a|] == a;
  }

  predicate IsDigit(c: char) {
    '0' <= c <= '9'
  }

  /** Every character of `s` is a decimal digit. */
  predicate AllDigits(s: string) {
    forall i :: 0 <= i < |s| ==> IsDigit(s[i])
  }

  function DigitChar(d: nat): (c: char)
    requires d < 10
    ensures IsDigit(c)
  {
    ('0' as int + d) as char
  }

  function DigitValue(c: char): (d: nat)
    requires IsDigit(c)
    ensures d < 10
  {
    c as int - '0' as int
  }

  /** `str(n)` for a non-negative integer: decimal digits with no leading zero. */
  function NatToDecimal(n: nat): (r: string)
    ensures |r| >= 1
    ensures AllDigits(r)
    ensures |r| > 1 ==> r[0] != '0'
    decreases n
  {
    if n < 10 then [DigitChar(n)] else NatToDecimal(n / 10) + [DigitChar(n % 10)]
  }

  /** `str(i)` for any integer: a minus sign before the digits of a negative value. */
  function IntToDecimal(i: int): (r: string)
    ensures |r| >= 1
    ensures i >= 0 <==> r[0] != '-'
  {
    if i < 0 then "-" + NatToDecimal(-i) else NatToDecimal(i)
  }

  /** The value of a string of decimal digits, read most significant digit first. */
  function DecimalValue(s: string): nat
    requires AllDigits(s)
  {
    if |s| == 0 then 0 else 10 * DecimalValue(s[..|s| - 1]) + DigitValue(s[|s| - 1])
  }

  /** Reading back a rendered natural number gives the number itself. */
  lemma {:induction false} DecimalRoundTrip(n: nat)
    ensures DecimalValue(NatToDecimal(n)) == n
    decreases n
  {
    if n >= 10 {
      var r := NatToDecimal(n);
      assert r[..|r| - 1] == NatToDecimal(n / 10);
      DecimalRoundTrip(n / 10);
    }
  }

  /** Rendering is injective: distinct numbers have distinct decimal forms. */
  lemma DecimalInjective(m: nat, n: nat)
    requires NatToDecimal(m) == NatToDecimal(n)
    ensures m == n
  {
    DecimalRoundTrip(m);
    DecimalRoundTrip(n);
  }
}

=== FILE: uploads.dfy ===
/**
  Upload filename checks: the `ALLOWED_EXTENSIONS` category table,
  `allowed_file` (is the last suffix of the name a known extension?) and
  `get_file_type` (which category does that suffix belong to?).
 */
module Uploads {
  import opened Results
  import opened Text
  import Seqs

  /** One entry of the category table: a category name and its extensions. */
  datatype Category = Category(name: string, extensions: seq<string>)

  /** The category table, in the dictionary's declaration order. */
  const AllowedExtensions: seq<Category> := [
    Category("image", ["jpg", "jpeg", "png", "gif", "webp", "bmp"]),
    Category("document", ["pdf", "txt", "doc", "docx", "xls", "xlsx", "ppt", "pptx"]),
    Category("audio", ["mp3", "wav", "ogg", "m4a"]),
    Category("video", ["mp4", "mov", "avi", "mkv", "webm"]),
    Category("archive", ["zip", "rar", "7z", "tar", "gz"])
  ]

  /** The category name reported for a suffix that no category lists. */
  const OtherType: string := "other"

  /** `ext` is listed by some category of `table`. */
  predicate Listed(table: seq<Category>, ext: string) {
    exists k :: 0 <= k < |table| && ext in table[k].extensions
  }

  /** Every extension of `table`, category after category (the comprehension in `allowed_file`). */
  function Flatten(table: seq<Category>): (r: seq<string>)
    ensures forall ext :: ext in r <==> Listed(table, ext)
  {
    if |table| == 0 then []
    else
      var rest := Flatten(table[1..]);
      assert forall ext :: Listed(table[1..], ext) ==> Listed(table, ext) by {
        forall ext | Listed(table[1..], ext) ensures Listed(table, ext) {
          var k :| 0 <= k < |table[1..]| && ext in table[1..][k].extensions;
          assert ext in table[k + 1].extensions;
        }
      }
      assert forall ext :: Listed(table, ext) && ext !in table[0].extensions ==> Listed(table[1..], ext) by {
        forall ext | Listed(table, ext) && ext !in table[0].extensions ensures Listed(table[1..], ext) {
          var k :| 0 <= k < |table| && ext in table[k].extensions;
          assert k > 0 && ext in table[1..][k - 1].extensions;
        }
      }
      table[0].extensions + rest
  }

  /** The text after the last `.` of a name containing one (`rsplit('.', 1)[1]`). */
  function Suffix(filename: string): (r: string)
    requires '.' in filename
    ensures '.' !in r
    ensures exists k :: 0 <= k < |filename| && filename[k] == '.' && r == filename[k + 1..]
  {
    var k := LastIndexOf(filename, '.').value;
    filename[k + 1..]
  }

  /** The lowercased last suffix: the key both `allowed_file` and `get_file_type` look up. */
  function Extension(filename: string): (r: string)
    requires '.' in filename
    ensures '.' !in r
    ensures exists k :: 0 <= k < |filename| && filename[k] == '.' && r == Lower(filename[k + 1..])
  {
    var x := Suffix(filename);
    assert forall i :: 0 <= i < |x| ==> Lower(x)[i] == LowerChar(x[i]);
    Lower(x)
  }

  /**
    `allowed_file(filename)`: a name with a `.` whose lowercased last suffix
    some category lists; for such a name, exactly those `get_file_type` does
    not call `"other"`.
   */
  function AllowedFile(filename: string): (b: bool)
    ensures b <==> '.' in filename && FileType(filename) != OtherType
  {
    '.' in filename && Listed(AllowedExtensions, Extension(filename))
  }

  /**
    The same test as the source writes it: membership in the flattened list of
    every category's extensions.
   */
  lemma AllowedFileFlattened(filename: string)
    ensures AllowedFile(filename) <==> '.' in filename && Extension(filename) in Flatten(AllowedExtensions)
  {
  }

  /** Name of the first category of `table` listing `ext`, or `"other"`. */
  function FirstCategory(table: seq<Category>, ext: string): (r: string)
    ensures !Listed(table, ext) ==> r == OtherType
    ensures Listed(table, ext) ==>
      exists k :: 0 <= k < |table| && ext in table[k].extensions && r == table[k].name
        && forall j :: 0 <= j < k ==> ext !in table[j].extensions
  {
    if |table| == 0 then OtherType
    else if ext in table[0].extensions then table[0].name
    else
      var r := FirstCategory(table[1..], ext);
      FirstCategoryShift(table, ext, r);
      r
  }

  /** Moves the answer for `table[1..]` to `table` when the head category does not list `ext`. */
  lemma FirstCategoryShift(table: seq<Category>, ext: string, r: string)
    requires |table| > 0 && ext !in table[0].extensions
    requires !Listed(table[1..], ext) ==> r == OtherType
    requires Listed(table[1..], ext) ==>
      exists k :: 0 <= k < |table[1..]| && ext in table[1..][k].extensions && r == table[1..][k].name
        && forall j :: 0 <= j < k ==> ext !in table[1..][j].extensions
    ensures !Listed(table, ext) ==> r == OtherType
    ensures Listed(table, ext) ==>
      exists k :: 0 <= k < |table| && ext in table[k].extensions && r == table[k].name
        && forall j :: 0 <= j < k ==> ext !in table[j].extensions
  {
    if Listed(table, ext) {
      var k :| 0 <= k < |table| && ext in table[k].extensions;
      assert k > 0 && ext in table[1..][k - 1].extensions;
      var k' :| 0 <= k' < |table[1..]| && ext in table[1..][k'].extensions && r == table[1..][k'].name
        && forall j :: 0 <= j < k' ==> ext !in table[1..][j].extensions;
      assert ext in table[k' + 1].extensions && r == table[k' + 1].name;
      forall j | 0 <= j < k' + 1 ensures ext !in table[j].extensions {
        if j > 0 { assert table[j] == table[1..][j - 1]; }
      }
    }
  }

  /** `get_file_type(filename)`; the source raises on a name without `.`, hence the precondition. */
  function FileType(filename: string): (r: string)
    requires '.' in filename
    ensures r == OtherType <==> !Listed(AllowedExtensions, Extension(filename))
    ensures r != OtherType ==>
      exists k :: 0 <= k < |AllowedExtensions| && Extension(filename) in AllowedExtensions[k].extensions
        && r == AllowedExtensions[k].name
  {
    assert forall k :: 0 <= k < |AllowedExtensions| ==> AllowedExtensions[k].name != OtherType;
    FirstCategory(AllowedExtensions, Extension(filename))
  }

  /** No extension is listed by two categories of `table`. */
  predicate Disjoint(table: seq<Category>) {
    forall i, j, ext :: 0 <= i < j < |table| && ext in table[i].extensions ==> ext !in table[j].extensions
  }

  /** First and last character of an extension: enough to tell the table's categories apart. */
  function Ends(ext: string): (char, char) {
    if |ext| == 0 then (' ', ' ') else (ext[0], ext[|ext| - 1])
  }

  /** For each category of the table, the `Ends` of its extensions. */
  const CategoryEnds: seq<set<(char, char)>> := [
    {('j', 'g'), ('p', 'g'), ('g', 'f'), ('w', 'p'), ('b', 'p')},
    {('p', 'f'), ('t', 't'), ('d', 'c'), ('d', 'x'), ('x', 's'), ('x', 'x'), ('p', 't'), ('p', 'x')},
    {('m', '3'), ('w', 'v'), ('o', 'g'), ('m', 'a')},
    {('m', '4'), ('m', 'v'), ('a', 'i'), ('w', 'm')},
    {('z', 'p'), ('r', 'r'), ('7', 'z'), ('t', 'r'), ('g', 'z')}
  ]

  lemma CategoryEndsCover(k: nat)
    requires k < |AllowedExtensions|
    ensures forall ext :: ext in AllowedExtensions[k].extensions ==> Ends(ext) in CategoryEnds[k]
  {
  }

  lemma CategoryEndsDisjoint(i: nat, j: nat)
    requires i < j < |CategoryEnds|
    ensures CategoryEnds[i] !! CategoryEnds[j]
  {
  }

  /** The table's extension lists are pairwise disjoint. */
  lemma AllowedExtensionsDisjoint()
    ensures Disjoint(AllowedExtensions)
  {
    var t := AllowedExtensions;
    forall i, j, ext | 0 <= i < j < |t| && ext in t[i].extensions
      ensures ext !in t[j].extensions
    {
      CategoryEndsCover(i);
      CategoryEndsCover(j);
      CategoryEndsDisjoint(i, j);
    }
  }

  /**
    In a disjoint table the first matching category is the only one, so the
    answer does not depend on the order in which categories are declared.
   */
  lemma FirstCategoryUnique(table: seq<Category>, ext: string, k: nat)
    requires Disjoint(table)
    requires k < |table| && ext in table[k].extensions
    ensures FirstCategory(table, ext) == table[k].name
  {
    assert Listed(table, ext);
    var r := FirstCategory(table, ext);
    var k' :| 0 <= k' < |table| && ext in table[k'].extensions && r == table[k'].name
      && forall j :: 0 <= j < k' ==> ext !in table[j].extensions;
  }

  /**
    `get_file_type` names the category listing the lowercased last suffix,
    whatever its position in the table, and `"other"` when none lists it.
   */
  lemma FileTypeCategory(filename: string)
    requires '.' in filename
    ensures forall k :: 0 <= k < |AllowedExtensions| && Extension(filename) in AllowedExtensions[k].extensions ==>
                FileType(filename) == AllowedExtensions[k].name
    ensures FileType(filename) == OtherType <==> !Listed(AllowedExtensions, Extension(filename))
  {
    var ext := Extension(filename);
    AllowedExtensionsDisjoint();
    forall k | 0 <= k < |AllowedExtensions| && ext in AllowedExtensions[k].extensions
      ensures FileType(filename) == AllowedExtensions[k].name
    {
      FirstCategoryUnique(AllowedExtensions, ext, k);
    }
  }

  /**
    Only the text after the LAST dot matters: for any dot with no dot after
    it, acceptance is decided by the lowercased text following it.
   */
  lemma AllowedByLastDot(filename: string, k: nat)
    requires k < |filename| && filename[k] == '.' && '.' !in filename[k + 1..]
    ensures AllowedFile(filename) <==> Listed(AllowedExtensions, Lower(filename[k + 1..]))
  {
    var j := LastIndexOf(filename, '.').value;
    assert j == k;
  }

  /**
    Only the final suffix is judged: any name ending in `.exe` is rejected,
    whatever comes before it (`a.PNG.exe` among them).
   */
  lemma ExeSuffixRejected(stem: string)
    ensures !AllowedFile(stem + ".exe")
  {
    var f := stem + ".exe";
    assert f[|stem| + 1..] == "exe";
    assert f[|stem|] == '.';
    AllowedByLastDot(f, |stem|);
    assert Lower("exe") == "exe";
    ExeNotListed();
  }

  lemma ExeNotListed()
    ensures !Listed(AllowedExtensions, "exe")
  {
    assert Ends("exe") == ('e', 'e');
    forall k | 0 <= k < |AllowedExtensions| ensures "exe" !in AllowedExtensions[k].extensions {
      CategoryEndsCover(k);
    }
  }

  /** The suffix is lowercased before the lookup: any name ending in `.PNG` is an image. */
  lemma UpperCaseSuffixAccepted(stem: string)
    ensures AllowedFile(stem + ".PNG")
    ensures FileType(stem + ".PNG") == "image"
  {
    var f, e := stem + ".PNG", "PNG";
    assert f == stem + "." + e;
    assert Lower(e) == "png" by {
      assert |Lower(e)| == 3 && Lower(e)[0] == 'p' && Lower(e)[1] == 'n' && Lower(e)[2] == 'g';
    }
    LastSuffixListed(stem, e, 0);
  }

  /** A name whose last suffix lowercases to an extension of category `c` is accepted and typed `c`. */
  lemma LastSuffixListed(stem: string, e: string, c: nat)
    requires '.' !in e && c < |AllowedExtensions| && Lower(e) in AllowedExtensions[c].extensions
    ensures AllowedFile(stem + "." + e) && FileType(stem + "." + e) == AllowedExtensions[c].name
  {
    var f := stem + "." + e;
    assert f[|stem| + 1..] == e && f[|stem|] == '.';
    AllowedByLastDot(f, |stem|);
    FileTypeCategory(f);
  }

  // ---------------------------------------------------------------------
  // Storing uploads: the upload loop of `api_send`
  // ---------------------------------------------------------------------

  /** The characters `str.strip("._")` removes from either end of a name. */
  predicate Strippable(c: char) {
    c == '.' || c == '_'
  }

  /** `s.lstrip("._")`. */
  function StripLeading(s: string): (r: string)
    ensures |r| <= |s| && r == s[|s| - |r|..]
    ensures forall i :: 0 <= i < |s| - |r| ==> Strippable(s[i])
    ensures |r| > 0 ==> !Strippable(r[0])
  {
    if |s| > 0 && Strippable(s[0]) then StripLeading(s[1..]) else s
  }

  /** `s.rstrip("._")`. */
  function StripTrailing(s: string): (r: string)
    ensures |r| <= |s| && r == s[..|r|]
    ensures forall i :: |r| <= i < |s| ==> Strippable(s[i])
    ensures |r| > 0 ==> !Strippable(r[|r| - 1])
  {
    if |s| > 0 && Strippable(s[|s| - 1]) then StripTrailing(s[..|s| - 1]) else s
  }

  /** Cutting `s` down to `s[i..j]` removes only `.` and `_`. */
  predicate Trims(s: string, i: int, j: int) {
    && 0 <= i <= j <= |s|
    && (forall k :: 0 <= k < i ==> Strippable(s[k]))
    && (forall k :: j <= k < |s| ==> Strippable(s[k]))
  }

  /**
    `secure_filename` on a name made of ASCII letters, digits, `-`, `_` and
    `.`: such a name is only stripped of `.` and `_` at both ends. What is
    cut off on either side is all `.` and `_`, and what remains neither
    starts nor ends with one.
   */
  function SecureName(filename: string): (r: string)
    ensures exists i, j :: Trims(filename, i, j) && r == filename[i..j]
    ensures |r| > 0 ==> !Strippable(r[0]) && !Strippable(r[|r| - 1])
  {
    var a := StripLeading(filename);
    var r := StripTrailing(a);
    StripsTrim(filename, a, r);
    r
  }

  /** A suffix cut off by stripping leading characters, then a prefix of it cut off at its end, is a trim. */
  lemma StripsTrim(s: string, a: string, r: string)
    requires |a| <= |s| && a == s[|s| - |a|..]
    requires forall i :: 0 <= i < |s| - |a| ==> Strippable(s[i])
    requires |r| <= |a| && r == a[..|r|]
    requires forall i :: |r| <= i < |a| ==> Strippable(a[i])
    ensures Trims(s, |s| - |a|, |s| - |a| + |r|) && r == s[|s| - |a|..|s| - |a| + |r|]
  {
    var i, j := |s| - |a|, |s| - |a| + |r|;
    forall k | j <= k < |s| ensures Strippable(s[k]) {
      assert s[k] == a[k - i];
    }
  }

  /** The row the upload loop stores for one file: the secured name and a file type. */
  datatype StoredFile = StoredFile(name: string, fileType: string)

  /**
    The upload loop as written: the type is asked of the SECURED name, and
    `get_file_type` raises when stripping left no `.` in it, which aborts the
    whole request. Otherwise it stores the same rows as the corrected loop,
    because a secured name that keeps a `.` keeps the upload's extension.
   */
  function StoredFilesAsWritten(uploads: seq<string>): (r: Option<seq<StoredFile>>)
    ensures r.None? <==> exists u :: u in uploads && AllowedFile(u) && '.' !in SecureName(u)
    ensures r.Some? ==> r.value == StoredFiles(uploads)
  {
    if |uploads| == 0 then Some([])
    else
      var rest := StoredFilesAsWritten(uploads[1..]);
      assert forall u :: u in uploads <==> u == uploads[0] || u in uploads[1..];
      StoredFilesCons(uploads);
      if !AllowedFile(uploads[0]) then rest
      else
        var name := SecureName(uploads[0]);
        if '.' !in name then None
        else
          SecuredKeepsType(uploads[0]);
          match rest
          case None => None
          case Some(files) => Some([StoredFile(name, FileType(name))] + files)
  }

  /** The row stored for an accepted upload: its secured name and the category of its extension. */
  function Stored(u: string): StoredFile
    requires '.' in u
  {
    StoredFile(SecureName(u), FileType(u))
  }

  /** `x` is the row of some accepted upload among `uploads`. */
  predicate FromUploads(x: StoredFile, uploads: seq<string>) {
    exists u :: u in uploads && AllowedFile(u) && x == Stored(u)
  }

  /**
    The upload loop with the type taken from the name `allowed_file` accepted:
    every accepted upload is stored, under its secured name, with the
    category its extension belongs to, and nothing else is stored: one row
    per accepted upload, in upload order.
   */
  function StoredFiles(uploads: seq<string>): (r: seq<StoredFile>)
    ensures |r| == |Seqs.Filter(uploads, AllowedFile)| <= |uploads|
    ensures forall i :: 0 <= i < |r| ==> r[i] == Stored(Seqs.Filter(uploads, AllowedFile)[i])
    ensures forall u :: u in uploads && AllowedFile(u) ==> Stored(u) in r
    ensures forall x :: x in r ==> x.fileType != OtherType
    ensures forall x :: x in r ==> FromUploads(x, uploads)
  {
    var accepted := Seqs.Filter(uploads, AllowedFile);
    var r := seq(|accepted|, i requires 0 <= i < |accepted| => Stored(accepted[i]));
    StoredRows(uploads, r);
    r
  }

  /** Rows made from the accepted uploads, one each, are exactly the rows of accepted uploads. */
  lemma StoredRows(uploads: seq<string>, r: seq<StoredFile>)
    requires |r| == |Seqs.Filter(uploads, AllowedFile)|
    requires forall i :: 0 <= i < |r| ==> r[i] == Stored(Seqs.Filter(uploads, AllowedFile)[i])
    ensures forall u :: u in uploads && AllowedFile(u) ==> Stored(u) in r
    ensures forall x :: x in r ==> x.fileType != OtherType
    ensures forall x :: x in r ==> FromUploads(x, uploads)
  {
    StoredRowsComplete(uploads, r);
    StoredRowsSound(uploads, r);
    forall x | x in r ensures x.fileType != OtherType {
      var u :| u in uploads && AllowedFile(u) && x == Stored(u);
    }
  }

  /** Every accepted upload has its row. */
  lemma StoredRowsComplete(uploads: seq<string>, r: seq<StoredFile>)
    requires |r| == |Seqs.Filter(uploads, AllowedFile)|
    requires forall i :: 0 <= i < |r| ==> r[i] == Stored(Seqs.Filter(uploads, AllowedFile)[i])
    ensures forall u :: u in uploads && AllowedFile(u) ==> Stored(u) in r
  {
    forall u | u in uploads && AllowedFile(u) ensures Stored(u) in r {
      StoredRowOf(uploads, r, u);
    }
  }

  /** The row of one accepted upload. */
  lemma StoredRowOf(uploads: seq<string>, r: seq<StoredFile>, u: string)
    requires |r| == |Seqs.Filter(uploads, AllowedFile)|
    requires forall i :: 0 <= i < |r| ==> r[i] == Stored(Seqs.Filter(uploads, AllowedFile)[i])
    requires u in uploads && AllowedFile(u)
    ensures Stored(u) in r
  {
    var accepted := Seqs.Filter(uploads, AllowedFile);
    var i :| 0 <= i < |accepted| && accepted[i] == u;
    assert r[i] == Stored(u);
  }

  /** Every row is that of an accepted upload. */
  lemma StoredRowsSound(uploads: seq<string>, r: seq<StoredFile>)
    requires |r| == |Seqs.Filter(uploads, AllowedFile)|
    requires forall i :: 0 <= i < |r| ==> r[i] == Stored(Seqs.Filter(uploads, AllowedFile)[i])
    ensures forall x :: x in r ==> FromUploads(x, uploads)
  {
    var accepted := Seqs.Filter(uploads, AllowedFile);
    forall x | x in r ensures FromUploads(x, uploads) {
      var i :| 0 <= i < |r| && r[i] == x;
      assert accepted[i] in uploads && AllowedFile(accepted[i]);
    }
  }

  /**
    A file named `.` followed by a listed lowercase extension passes
    `allowed_file`, but its secured name is the bare extension, without a
    `.`: the upload loop as written aborts, while the corrected loop stores
    it with its category.
   */
  lemma HiddenExtensionAborts(e: string, k: nat)
    requires k < |AllowedExtensions| && e in AllowedExtensions[k].extensions && Lower(e) == e && '.' !in e
    requires |e| > 0 && !Strippable(e[0]) && !Strippable(e[|e| - 1])
    ensures AllowedFile("." + e) && SecureName("." + e) == e
    ensures StoredFilesAsWritten(["." + e]) == None
    ensures StoredFiles(["." + e]) == [StoredFile(e, AllowedExtensions[k].name)]
  {
    var f := "." + e;
    assert f[0] == '.' && f[1..] == e;
    AllowedByLastDot(f, 0);
    FileTypeCategory(f);
    DotNameSecured(e);
    HiddenUploadAborts(f, e);
    HiddenUploadStored(f, e, FileType(f));
  }

  /** The smallest such name: `.png`. */
  lemma DotNameAborts()
    ensures AllowedFile(".png") && SecureName(".png") == "png"
    ensures StoredFilesAsWritten([".png"]) == None
    ensures StoredFiles([".png"]) == [StoredFile("png", "image")]
  {
    var e := "png";
    assert ".png" == "." + e;
    assert Lower(e) == e by {
      assert |Lower(e)| == 3 && Lower(e)[0] == 'p' && Lower(e)[1] == 'n' && Lower(e)[2] == 'g';
    }
    HiddenExtensionAborts(e, 0);
  }

  /** Stripping a name made of one leading `.` and a clean rest leaves the rest. */
  lemma DotNameSecured(x: string)
    requires |x| > 0 && !Strippable(x[0]) && !Strippable(x[|x| - 1])
    ensures SecureName("." + x) == x
  {
    var f := "." + x;
    assert f[0] == '.' && f[1..] == x;
    assert StripLeading(x) == x;
    assert StripLeading(f) == x;
    assert StripTrailing(x) == x;
  }

  /** An accepted upload whose secured name has no `.` aborts the loop as written. */
  lemma HiddenUploadAborts(u: string, x: string)
    requires AllowedFile(u) && SecureName(u) == x && '.' !in x
    ensures StoredFilesAsWritten([u]) == None
  {
    assert u in [u];
  }

  /** The corrected loop stores a single accepted upload under its secured name and type. */
  lemma HiddenUploadStored(u: string, x: string, t: string)
    requires AllowedFile(u) && SecureName(u) == x && FileType(u) == t
    ensures StoredFiles([u]) == [StoredFile(x, t)]
  {
    StoredSingle(u);
  }

  /** A single accepted upload gives a single row. */
  lemma StoredSingle(u: string)
    requires AllowedFile(u)
    ensures StoredFiles([u]) == [Stored(u)]
  {
    Seqs.FilterSingle(u, AllowedFile);
    assert StoredFiles([u])[0] == Stored(u);
  }

  /** The rows of a non-empty upload list: the head's row when it is accepted, then the tail's rows. */
  lemma StoredFilesCons(uploads: seq<string>)
    requires |uploads| > 0
    ensures StoredFiles(uploads)
         == (if AllowedFile(uploads[0]) then [Stored(uploads[0])] else []) + StoredFiles(uploads[1..])
  {
    Seqs.FilterCons(uploads, AllowedFile);
    StoredFilesApply(uploads);
    StoredFilesApply(uploads[1..]);
    Seqs.MapCons(Stored, Seqs.Filter(uploads, AllowedFile), Seqs.Filter(uploads[1..], AllowedFile), uploads[0],
                 AllowedFile(uploads[0]), StoredFiles(uploads), StoredFiles(uploads[1..]));
  }

  /** The rows of `StoredFiles`, seen as `Stored` applied to each accepted upload. */
  lemma StoredFilesApply(uploads: seq<string>)
    ensures var a := Seqs.Filter(uploads, AllowedFile);
      forall i :: 0 <= i < |a| ==> Stored.requires(a[i]) && StoredFiles(uploads)[i] == Stored(a[i])
  {
  }

  /** The last character of an accepted name ends a listed extension, so it is neither `.` nor `_`. */
  lemma AcceptedEndsClean(u: string)
    requires AllowedFile(u)
    ensures |u| > 0 && !Strippable(u[|u| - 1])
  {
    var d := LastIndexOf(u, '.').value;
    var ext := Extension(u);
    assert ext == Lower(u[d + 1..]);
    var k :| 0 <= k < |AllowedExtensions| && ext in AllowedExtensions[k].extensions;
    CategoryEndsCover(k);
    CategoryEndsClean(k);
    assert Ends(ext) in CategoryEnds[k];
    assert |ext| > 0 && !Strippable(ext[|ext| - 1]);
    assert ext[|ext| - 1] == LowerChar(u[|u| - 1]);
  }

  /** No listed extension is empty or ends in `.` or `_`. */
  lemma CategoryEndsClean(k: nat)
    requires k < |CategoryEnds|
    ensures forall p :: p in CategoryEnds[k] ==> p.0 != ' ' && !Strippable(p.1)
  {
  }

  /** Cutting leading characters off a name keeps its last suffix, as long as a `.` remains. */
  lemma SuffixOfTail(u: string, i: nat)
    requires i <= |u| && '.' in u[i..]
    ensures '.' in u && Suffix(u[i..]) == Suffix(u)
  {
    var s := u[i..];
    var e := LastIndexOf(s, '.').value;
    assert u[i + e] == '.';
    var d := LastIndexOf(u, '.').value;
    assert forall m :: e < m < |s| ==> s[m] != '.';
    assert forall m :: d < m < |u| ==> u[m] != '.';
    assert i + e == d;
    assert s[e + 1..] == u[d + 1..];
  }

  /** An accepted upload whose secured name keeps a `.` has the same type under either name. */
  lemma SecuredKeepsType(u: string)
    requires AllowedFile(u) && '.' in SecureName(u)
    ensures FileType(SecureName(u)) == FileType(u)
  {
    AcceptedEndsClean(u);
    var i, j :| Trims(u, i, j) && SecureName(u) == u[i..j];
    assert j == |u|;
    var x := SecureName(u);
    SliceToEnd(u, i);
    SuffixOfTail(u, i);
    SameSuffixSameType(x, u);
  }

  /** A slice running to the end is the tail from its start. */
  lemma SliceToEnd(u: string, i: nat)
    requires i <= |u|
    ensures u[i..|u|] == u[i..]
  {
  }

  /** The type depends on the last suffix alone. */
  lemma SameSuffixSameType(x: string, y: string)
    requires '.' in x && '.' in y && Suffix(x) == Suffix(y)
    ensures FileType(x) == FileType(y)
  {
    assert Extension(x) == Extension(y);
  }

}
